=== FILE: README.md ===
# Employee time tracking, chat and forum — a Dafny model

This project models the core of an employee-management web application:

- **Time tracking on a task.** An assigned employee starts a work session, takes a break, resumes, and ends the day.
  - Each of these requests inspects the task's first open time entry, and within it the first open break.
  - It then answers with the updated task or with the controller's HTTP error.
  - The description of a recorded time entry can be edited afterwards.
- **The weekly report.** For one employee and a date window, every closed time entry that started in the window becomes an item. Items are grouped by calendar day and listed in ascending day order. Each day and the whole window are totalled.
- **Chat.** Listing the newest messages of a room or of a private conversation, oldest first. Posting a message to a room.
- **Forum.** Listing posts by category, pinned first, then newest, one page at a time. Creating a post. Reading a post, which counts a view. Replying to a post.
- **Client-side token check.** The structural check of a stored JSON Web Token: three period-separated parts (section 7.1 of RFC 7515), then the expiration time claim (section 4.1.4 of RFC 7519).

Modelling choices:

- Every controller is a pure function. It takes the stored records as a sequence and returns a `Result`: the new state or answer, or an error kind (400, 403, 404, 500) with the controller's message.
- The document store's `findById` and `Array.prototype.find` are `Search.FindFirst`: the first record that matches.
- The clock readings, the identifiers the store assigns, the employee directory, and the calendar day of a timestamp are all parameters.
- Ending the day reads the clock twice, once to close the open break and once to close the entry, so `TimeTracking.EndDay` takes two readings.
- Time is in integral milliseconds. `Math.round(ms / 60000)` is `Durations.RoundMinutes`: round to nearest, halves up.

The time log has two invariants, and the model proves that every timer request keeps them, and so does any clock-ordered sequence of requests:

- **`Tasks.WellFormed`:** at most one open entry, at most one open break per entry, and closed breaks and entries carrying their rounded durations.
- **`Tasks.Chronological`:** every timestamp is in clock order.

Two behaviours of the code are modelled as written:

- **Worked minutes can be negative.** The controller rounds each break to whole minutes before subtracting it. So the worked minutes of an entry (`totalDuration`) can be negative: two half-minute breaks in a one-minute session record -1 (`TrackingScenarios.NegativeWorkedMinutes`). The proved bound is `-(number of breaks) <= 2 * worked minutes` (`TrackingChronology.EndDayWorkedMinutesBounds`).
- **Breaks are subtracted twice in the net figure.** The weekly summary's net figure subtracts the break total from the worked total. The worked total already excludes breaks. The model keeps that subtraction as written (`WeeklyReport.GetWeeklyReport`).

The timer conflicts ("already in progress", "no active session") answer 400, as the code does.

## Model

| member | source | states |
|---|---|---|
| Search.FindFirst | backend/controllers/taskController.js:182 | The index returned is the first element satisfying the predicate; none is returned exactly when no element satisfies it |
| Search.Filter | backend/controllers/chatController.js:24 | A store query returns exactly the matching records, each from the store, as a sub-multiset of it that keeps every copy of each match |
| Sorting.SortDesc | backend/controllers/forumController.js:25 | A descending sort on a two-part key yields an ordered permutation of its input |
| Durations.RoundMinutes | backend/controllers/taskController.js:277 | Rounding milliseconds to minutes gives the whole minute within half a minute below and strictly less than half a minute above |
| Tasks.ActiveEntry | backend/controllers/taskController.js:182 | The entry `find(entry => !entry.endTime)` returns: none exactly when no entry is open, otherwise the first open one |
| Tasks.ActiveBreak | backend/controllers/taskController.js:228 | The break `find(b => !b.end)` returns: none exactly when no break is open, otherwise the first open one |
| Tasks.BreakMinutes | backend/controllers/taskController.js:495 | Defines the sum of the break durations of an entry, counting a break without a duration as 0, as the weekly report does. At line 324 a missing duration gives NaN instead, which `Tasks.WorkedMinutes` models as an absent result before it uses this sum. Its bounds on clock-ordered breaks are `TrackingChronology.BreakMinutesBounds` |
| Tasks.StateOf | backend/controllers/taskController.js:222-231 | A task is idle exactly when no entry is open, and on a break exactly when its first open entry has an open break |
| Tasks.WorkedMinutes | backend/controllers/taskController.js:322-325 | Worked minutes are defined exactly when every break has a duration, and are the rounding of elapsed time less break minutes |
| TimeTracking.CloseBreak | backend/controllers/taskController.js:275-277 | A break ended now records now as its end and its length rounded to the nearest minute |
| TimeTracking.CloseOpenBreak | backend/controllers/taskController.js:311-316 | Only the first open break is closed at now; every other break is unchanged |
| TimeTracking.OpenedEntry | backend/controllers/taskController.js:187-192 | Defines the entry a start appends: started now, open, with the start description and no breaks |
| TimeTracking.Start | backend/controllers/taskController.js:181-194 | Refused with 400 exactly when some entry is open; otherwise one open entry is appended with the start description, the task becomes active, and nothing else changes |
| TimeTracking.TakeBreak | backend/controllers/taskController.js:221-236 | Refused without an open entry, or when the first open entry has an open break; otherwise that entry gains one open break and nothing else changes |
| TimeTracking.Resume | backend/controllers/taskController.js:263-277 | Refused without an open entry or without an open break in it; otherwise only that entry's first open break is closed now |
| TimeTracking.EndDay | backend/controllers/taskController.js:305-325 | Refused exactly when no entry is open. Otherwise the first open entry: closes its open break at the first clock reading, is closed at the second, takes the given or default description, and records its worked minutes. Nothing else changes |
| TimeTracking.SetDescription | backend/controllers/taskController.js:402-414 | Refused with 404 exactly when no entry has the id; otherwise only the first entry with that id changes, and only its description |
| TimeTracking.StoredTask | backend/controllers/taskController.js:169 | The task looked up by id is the first stored task with that id |
| TimeTracking.LoadForTimer | backend/controllers/taskController.js:169-179 | A missing task answers 404, a caller who is not the assignee 403, whatever their role; otherwise the stored task is used |
| TimeTracking.StartTask | backend/controllers/taskController.js:167-202 | The start request is the lookup and assignee guard followed by the start transition |
| TimeTracking.TakeBreakTask | backend/controllers/taskController.js:207-244 | The break request is the lookup and assignee guard followed by the break transition |
| TimeTracking.ResumeTask | backend/controllers/taskController.js:249-285 | The resume request is the lookup and assignee guard followed by the resume transition |
| TimeTracking.EndTaskDay | backend/controllers/taskController.js:290-333 | The end-of-day request is the lookup and assignee guard followed by the end-of-day transition, with the break and the entry closed at their own clock readings |
| TimeTracking.UpdateTimeEntryDescription | backend/controllers/taskController.js:379-422 | A missing task answers 404. Only a caller with the employee role is checked against the assignee (403). Otherwise the description edit applies |
| TrackingProperties.StartTransition | backend/controllers/taskController.js:181-194 | Starting succeeds exactly from the idle state and leads to working |
| TrackingProperties.TakeBreakTransition | backend/controllers/taskController.js:221-236 | A break succeeds exactly from working and leads to on-break |
| TrackingProperties.ResumeTransition | backend/controllers/taskController.js:263-277 | Resuming succeeds exactly from on-break and, on a well-formed task, leads back to working |
| TrackingProperties.EndDayTransition | backend/controllers/taskController.js:305-325 | Ending the day succeeds exactly from working or on-break and, on a well-formed task, leads to idle |
| TrackingInvariants.CloseOpenBreakKeepsBreaksConsistent | backend/controllers/taskController.js:311-316 | Closing the open break keeps every break's recorded duration consistent with its end, and leaves no break open when there was at most one |
| TrackingInvariants.StartPreservesWellFormed | backend/controllers/taskController.js:181-194 | Starting keeps at most one open entry and every entry well formed |
| TrackingInvariants.TakeBreakPreservesWellFormed | backend/controllers/taskController.js:227-236 | Taking a break keeps at most one open break per entry and every entry well formed |
| TrackingInvariants.ResumePreservesWellFormed | backend/controllers/taskController.js:269-277 | Resuming keeps the task well formed: the closed break records its rounded length |
| TrackingInvariants.EndDayPreservesWellFormed | backend/controllers/taskController.js:311-325 | Ending the day keeps the task well formed: the closed entry has no open break and records its worked minutes |
| TrackingInvariants.SetDescriptionPreservesWellFormed | backend/controllers/taskController.js:413-414 | Editing a description keeps the task well formed and its tracking state unchanged |
| TrackingChronology.StartKeepsChronology | backend/controllers/taskController.js:188-194 | A start at a clock reading not earlier than the last keeps every timestamp in clock order |
| TrackingChronology.TakeBreakKeepsChronology | backend/controllers/taskController.js:233-236 | A break at a later clock reading keeps every timestamp in clock order |
| TrackingChronology.ResumeKeepsChronology | backend/controllers/taskController.js:275-277 | A resume at a later clock reading keeps every timestamp in clock order |
| TrackingChronology.EndDayKeepsChronology | backend/controllers/taskController.js:311-325 | An end of day whose break reading and entry reading are later than the last, in that order, keeps every timestamp in clock order |
| TrackingChronology.BreakMinutesBounds | backend/controllers/taskController.js:324 | The break minutes of ordered closed breaks within a session are non-negative and exceed its length by at most half a minute per break |
| TrackingChronology.WorkedMinutesBounds | backend/controllers/taskController.js:322-325 | Worked minutes of a clock-ordered session are defined, at most the rounded elapsed time, and at least minus half the number of breaks |
| TrackingChronology.EndDayWorkedMinutesBounds | backend/controllers/taskController.js:322-325 | On a well-formed, clock-ordered task, with the break closed no later than the entry, the ended entry records worked minutes no greater than the rounded session length and no lower than minus half its break count |
| TrackingScenarios.PerformKeepsInvariants | backend/controllers/taskController.js:167-333 | Any one timer or description request keeps both invariants at the clock reading it makes |
| TrackingScenarios.ReplayKeepsInvariants | backend/controllers/taskController.js:167-333 | Any clock-ordered sequence of requests, refused ones saving nothing, keeps both invariants |
| TrackingScenarios.WorkDayRoundTrip | backend/controllers/taskController.js:181-325 | Start, break, resume and end on an idle task all succeed and append exactly one closed entry. The entry holds the one break with its rounded length and the elapsed time less that break. The task ends idle |
| TrackingScenarios.NegativeWorkedMinutes | backend/controllers/taskController.js:323-325 | A one-minute session with two half-minute breaks records -1 worked minutes |
| WeeklyReport.SelectTasks | backend/controllers/taskController.js:463-469 | The store query keeps exactly the employee's tasks where some entry started no earlier than the window's start and some entry, possibly another, no later than its end |
| WeeklyReport.StraddlingTaskFetchedNotCounted | backend/controllers/taskController.js:463-482 | A task with one entry before the window and one after it is fetched by the query yet contributes no report item |
| WeeklyReport.ReportWindow | backend/controllers/taskController.js:444-458 | Defines the report window: the given dates when both are present, otherwise a default window, which is a parameter |
| WeeklyReport.Counted | backend/controllers/taskController.js:481-482 | Defines the entries the report counts: closed ones that started inside the window |
| WeeklyReport.ItemOf | backend/controllers/taskController.js:494-508 | Defines the item of a counted entry: its task and entry fields, its worked minutes (0 when unset) and its break minutes (a break without a duration counts 0) |
| WeeklyReport.GroupByDay | backend/controllers/taskController.js:483-521 | Defines the grouping: each item, in scan order, is added to its day's items and totals, and a new day is inserted at its place in ascending order, so the final sort is built in; its properties are the three `GroupByDay*` lemmas below |
| WeeklyReport.EntryItemsMembers | backend/controllers/taskController.js:479-482 | A task contributes exactly the items of its closed entries that started inside the window |
| WeeklyReport.ReportItemsMembers | backend/controllers/taskController.js:463-516 | The report lists exactly the items of the counted entries of every task assigned to the employee |
| WeeklyReport.GroupByDayTotals | backend/controllers/taskController.js:485-521 | Grouping lists days ascending, each totalled over its own items, and the day totals add up to the totals over all items |
| WeeklyReport.GroupByDayItems | backend/controllers/taskController.js:485-508 | Each day lists exactly the items that fall on it, in scan order |
| WeeklyReport.GroupByDayDays | backend/controllers/taskController.js:483-492 | The days listed are exactly the days on which some item falls |
| WeeklyReport.AscendingDaysCount | backend/controllers/taskController.js:531 | Ascending days are distinct, so the number of days worked is the number of days listed |
| WeeklyReport.GetWeeklyReport | backend/controllers/taskController.js:428-538 | An unknown employee answers 404. Otherwise the window is the requested one or the default window. Days are ascending and each holds exactly its items. The summary totals all items, and days worked counts the distinct days |
| Chat.ConversationOf | backend/controllers/chatController.js:11-22 | A room takes precedence over a recipient; a recipient without a room selects the private exchange between the caller and that recipient; with neither there is no conversation |
| Chat.Returned | backend/controllers/chatController.js:8-28 | The number returned is the limit (50 by default) when fewer would not fit, and all matches when the limit is 0 |
| Chat.Reverse | backend/controllers/chatController.js:30 | Reversal puts element i at position length-1-i |
| Chat.LatestOldestFirst | backend/controllers/chatController.js:24-30 | The selection has the requested size, is drawn from the matches, is ordered oldest first, and leaves out no message newer than one it keeps |
| Chat.Matching | backend/controllers/chatController.js:11-24 | The query matches exactly the stored messages of the room, or of the private exchange in either direction, keeping every copy of each match |
| Chat.GetMessages | backend/controllers/chatController.js:6-35 | With neither room nor recipient the answer is 400. Otherwise it holds only messages of the conversation and the number the limit allows, oldest first, and no newer matching message is left out |
| Chat.SendMessage | backend/controllers/chatController.js:39-56 | Missing content answers 400 before a missing room. Otherwise the message is public, in the room, from the caller, stamped now |
| Chat.SentMessageListedLast | backend/controllers/chatController.js:6-76 | A message sent later than every stored one is the last message of its room's next listing, whatever the limit |
| Forum.CategoryFilter | backend/controllers/forumController.js:10-12 | No category filter applies exactly when the category is absent, empty or "all" |
| Forum.Ranked | backend/controllers/forumController.js:22-25 | The listing order is a pinned-first, newest-first permutation of the matching posts |
| Forum.Matching | backend/controllers/forumController.js:22-29 | The listing query and the count query match exactly the stored posts of the category filter, keeping every copy of each match |
| Forum.Offset | backend/controllers/forumController.js:27 | Defines the number of posts a page skips, `(page - 1) * limit` |
| Forum.PageCount | backend/controllers/forumController.js:33 | The page count is the least number of pages of the limit's size holding every post |
| Forum.PageSize | backend/controllers/forumController.js:26-27 | A page holds at most the limit, fewer only at the end of the listing, and everything after the offset when the limit is 0 |
| Forum.ListPage | backend/controllers/forumController.js:22-27 | A page is the run of the listing order starting at the offset, ordered, holding only matching stored posts |
| Forum.GetPosts | backend/controllers/forumController.js:5-41 | A negative offset is a server error. Otherwise the answer is the page at offset (page-1)*limit, the total number of matches, their page count (none when the limit is 0), and the page number |
| Forum.PageCovers | backend/controllers/forumController.js:26-33 | Paging covers the listing: the post of any rank is on page rank/limit+1, at index rank mod limit, within the page count |
| Forum.CreatePost | backend/controllers/forumController.js:44-58 | A missing title or content answers 400. Otherwise the post has the given fields, category "general" and no tags by default, no views, no replies, and is not pinned |
| Forum.GetPost | backend/controllers/forumController.js:71-90 | A missing post answers 404. Otherwise the read post has one more view, and nothing else in the store changes |
| Forum.AddReply | backend/controllers/forumController.js:93-118 | Missing content answers 400 before a missing post is 404. Otherwise the reply is appended to that post's replies and returned, and nothing else changes |
| Forum.CreatedPostReadable | backend/controllers/forumController.js:44-90 | A post created under a fresh id is read back with its first view counted |
| Forum.TwoReadsTwoViews | backend/controllers/forumController.js:81-83 | Two reads of a post count two views and change nothing else |
| Forum.ReplyReadBack | backend/controllers/forumController.js:107-116 | A new reply is the last reply of the post when it is next read |
| Token.StripQuotes | frontend/src/utils/token.js:12 | One enclosing pair of double quotes is removed exactly when both are present and no line terminator lies between them |
| Token.Trim | frontend/src/utils/token.js:12 | Trimming keeps a slice surrounded only by white space and neither starting nor ending with white space |
| Token.Split | frontend/src/utils/token.js:15 | Splitting on periods gives one more period-free part than there are periods, and joining the parts gives back the string |
| Token.SplitJoin | frontend/src/utils/token.js:15-18 | Splitting undoes joining period-free parts |
| Token.CheckCleaned | frontend/src/utils/token.js:14-32 | A cleaned token is malformed exactly when splitting it on periods does not give three parts. An undecodable middle part is refused. Decoded claims are refused exactly when expired, and otherwise accepted with that payload |
| Token.ValidateToken | frontend/src/utils/token.js:2-36 | A falsy value is refused first, then a non-string; a string is judged by its cleaned form, and an accepted token is a non-empty string |
| Token.CompactTokenAccepted | frontend/src/utils/token.js:12-29 | A bare three-part token is accepted exactly when its middle part decodes to claims that are not expired |
| Token.QuotedTokenSame | frontend/src/utils/token.js:12 | A token wrapped in one pair of double quotes is judged like the token itself |
| Token.IsExpired | frontend/src/utils/token.js:25 | Defines expiry: a present, non-zero `exp` claim (seconds) that the clock (milliseconds) has reached |
| Token.ExpiryMonotone | frontend/src/utils/token.js:25-27 | A token refused as expired stays refused later, and one accepted later was accepted the same way earlier |

## Left out

- Persistence: every store read and write, and the Mongoose `populate` calls. The stores are sequences. An answer carries the records the controller saves and returns. Racing concurrent requests are not modelled.
- The models Task, Message, ForumPost, Employee and User are not part of this model. Their schema defaults are taken as: an entry's breaks start empty, a message is public and a post unpinned with no views, and the store stamps records at creation.
- Floating-point hours and `toFixed(2)`: the weekly report totals whole minutes, which the controller divides by 60.
- The calendar day in the server's local time zone (`toLocaleDateString`) and the parsing of that string for sorting are a parameter. It is an ordinal day number that increases with the date.
- WeeklyReport.ReportWindow: the default window is a parameter. The controller means it to be the current week, Sunday to Saturday, but computes its end by adding the Sunday's day of the month plus 6 to today's month. When the week began in the previous month, the end therefore overflows by about a month: on Tuesday 2 September 2025 the window runs from Sunday 31 August to 7 October. The model does not compute that date arithmetic. The parsing of the `startDate`/`endDate` query strings is left out, and so are invalid dates.
- The `period` string and the employee record in the weekly report answer.
- The employee directory and the caller's identity are parameters: `Actor` has a role and an optional employee record.
- The 500 "Server error" answers of the catch blocks. They are kept only where the store refuses a negative skip in the forum listing.
- The forum's regular-expression `search` parameter: the model lists by category only.
- Negative limits, and chat and forum `limit` and `page` values that are non-numeric or fractional. The limit is a natural number (0 meaning no limit). A page is any integer; a page of 0 or less with a positive limit gives the modelled 500 answer for a negative skip.
- Replies have no identifier or timestamp of their own.
- The real-time layer (Socket.IO emission in `sendMessage`) and the chat room list (`getRooms`).
- The token refresh helper `refreshTokenIfNeeded` and the other operations of the token file (they read browser storage and the network).
- The decoding of the token payload: standard-base64 `atob` decoding (which rejects the `-` and `_` of base64url, so a token whose payload encoding contains them is refused as an invalid payload) followed by `JSON.parse`. It is an oracle that either fails or yields the `exp` claim as an integer. A non-numeric `exp` is left out.
- The outer "Token validation error" branch of the token check: nothing in the checked steps can throw there.
- The other controller operations (task listing, creation and deletion, GitHub integration, employee routes).
- TimeTracking.EndDay: a break without a duration makes the worked minutes `None`, standing for the NaN the JavaScript arithmetic produces.
- Sorting.SortDesc: posts with equal keys stay in store order. The document store does not promise any order among ties.
- Forum.PageCovers: every post lies on exactly one page only because ties keep store order in every query. The document store promises no stable tie order across separate `skip`/`limit` queries, so with equal keys a post could appear on two pages or on none.
- TimeTracking.UpdateTimeEntryDescription: the description is a string. An absent description in the request body, which the controller would store as undefined, is not modelled.
- Durations.RoundMinutes: timestamps are integral milliseconds, so `Math.round` of a non-integral quotient is the only rounding modelled.

=== FILE: chat.dfy ===
/** Chat messages: listing the most recent messages of a room or of a
    private conversation, and posting a message to a room. */
module Chat {
  import opened Results
  import opened Search
  import opened Sorting

  type UserId = nat

  /** A stored chat message; `room` and `recipient` are absent when unset. */
  datatype Message = Message(
    id: nat,
    content: string,
    room: Option<string>,
    sender: UserId,
    recipient: Option<UserId>,
    isPrivate: bool,
    timestamp: int)

  /** The page size when the request gives none. */
  const DefaultLimit: nat := 50

  const RoomOrRecipientRequired := "Room or recipient ID required"
  const ContentRequired := "Message content is required"
  const RoomRequired := "Room is required"

  /** The conversation a listing asks for: a public room, or the private
      exchange between the caller and another user. */
  datatype Conversation = RoomChat(room: string) | PrivateChat(me: UserId, other: UserId)

  /** A room when one is given, else the private exchange with the
      recipient, else nothing. */
  function ConversationOf(room: Option<string>, recipientId: Option<UserId>, me: UserId): (c: Option<Conversation>)
    ensures c.None? <==> !Present(room) && recipientId.None?
    ensures Present(room) ==> c == Some(RoomChat(room.value))
    ensures !Present(room) && recipientId.Some? ==> c == Some(PrivateChat(me, recipientId.value))
  {
    if Present(room) then Some(RoomChat(room.value))
    else if recipientId.Some? then Some(PrivateChat(me, recipientId.value))
    else None
  }

  /** The messages the store query of a conversation matches. */
  predicate InConversation(m: Message, c: Conversation) {
    match c
    case RoomChat(r) => m.room == Some(r) && !m.isPrivate
    case PrivateChat(me, other) =>
      && m.isPrivate
      && ((m.sender == me && m.recipient == Some(other)) || (m.sender == other && m.recipient == Some(me)))
  }

  /** The sort key of `sort({timestamp: -1})`. */
  function ByTime(m: Message): (int, int) {
    (m.timestamp, 0)
  }

  /** How many of `n` matching messages are returned: a limit of 0 means no
      limit, as in the document store. */
  function Returned(limit: Option<nat>, n: nat): (k: nat)
    ensures k <= n
    ensures n > 0 ==> k > 0
    ensures limit.GetOr(DefaultLimit) == 0 ==> k == n
    ensures limit.GetOr(DefaultLimit) > 0 ==> k == if n < limit.GetOr(DefaultLimit) then n else limit.GetOr(DefaultLimit)
  {
    var l := limit.GetOr(DefaultLimit);
    if l == 0 || l > n then n else l
  }

  function Reverse<T>(s: seq<T>): (r: seq<T>)
    ensures |r| == |s|
    ensures forall i :: 0 <= i < |s| ==> r[i] == s[|s| - 1 - i]
    decreases |s|
  {
    if |s| == 0 then [] else Reverse(s[1..]) + [s[0]]
  }

  lemma {:induction false} ReverseMultiset<T>(s: seq<T>)
    ensures multiset(Reverse(s)) == multiset(s)
    decreases |s|
  {
    if |s| > 0 {
      ReverseMultiset(s[1..]);
      assert s == [s[0]] + s[1..];
    }
  }

  /** The `k` newest of `ms`, oldest first: newest-first selection then
      reversal. */
  function LatestOldestFirst(ms: seq<Message>, k: nat): (r: seq<Message>)
    requires k <= |ms|
    ensures |r| == k
    ensures multiset(r) <= multiset(ms)
    ensures forall i, j :: 0 <= i < j < |r| ==> r[i].timestamp <= r[j].timestamp
    ensures forall m, i :: m in ms && 0 <= i < |r| && m.timestamp > r[i].timestamp ==> m in r
  {
    var sorted := SortDesc(ms, ByTime);
    TakenMultiset(sorted, k);
    TakenAscending(sorted, k);
    TakenNewest(ms, sorted, k);
    Reverse(sorted[..k])
  }

  lemma TakenMultiset(sorted: seq<Message>, k: nat)
    requires k <= |sorted|
    ensures multiset(Reverse(sorted[..k])) <= multiset(sorted)
  {
    assert sorted == sorted[..k] + sorted[k..];
    ReverseMultiset(sorted[..k]);
  }

  lemma TakenAscending(sorted: seq<Message>, k: nat)
    requires k <= |sorted| && SortedDesc(sorted, ByTime)
    ensures var r := Reverse(sorted[..k]);
      forall i, j :: 0 <= i < j < |r| ==> r[i].timestamp <= r[j].timestamp
  {
    var r := Reverse(sorted[..k]);
    forall i, j | 0 <= i < j < |r| ensures r[i].timestamp <= r[j].timestamp {
      assert r[i] == sorted[k - 1 - i] && r[j] == sorted[k - 1 - j];
      assert KeyGe(ByTime(sorted[k - 1 - j]), ByTime(sorted[k - 1 - i]));
    }
  }

  /** Nothing left out of the first `k` is newer than something kept. */
  lemma TakenNewest(ms: seq<Message>, sorted: seq<Message>, k: nat)
    requires k <= |sorted| && SortedDesc(sorted, ByTime) && multiset(sorted) == multiset(ms)
    ensures var r := Reverse(sorted[..k]);
      forall m, i :: m in ms && 0 <= i < |r| && m.timestamp > r[i].timestamp ==> m in r
  {
    var r := Reverse(sorted[..k]);
    forall m, i | m in ms && 0 <= i < |r| && m.timestamp > r[i].timestamp
      ensures m in r
    {
      assert m in multiset(sorted);
      var p :| 0 <= p < |sorted| && sorted[p] == m;
      if p < k {
        assert r[k - 1 - p] == m;
      }
    }
  }

  /** The messages of the store a conversation's query matches. */
  function Matching(store: seq<Message>, c: Conversation): (r: seq<Message>)
    ensures forall i :: 0 <= i < |r| ==> r[i] in store && InConversation(r[i], c)
    ensures forall m :: m in store && InConversation(m, c) ==> m in r
    ensures multiset(r) <= multiset(store)
    ensures forall i :: 0 <= i < |store| && InConversation(store[i], c) ==> multiset(r)[store[i]] == multiset(store)[store[i]]
  {
    Filter(store, (m: Message) => InConversation(m, c))
  }

  /** What a selection of the newest matching messages keeps of the
      conversation. */
  lemma SelectionFacts(store: seq<Message>, c: Conversation, r: seq<Message>)
    requires multiset(r) <= multiset(Matching(store, c))
    requires forall m, i :: m in Matching(store, c) && 0 <= i < |r| && m.timestamp > r[i].timestamp ==> m in r
    ensures forall i :: 0 <= i < |r| ==> InConversation(r[i], c)
    ensures multiset(r) <= multiset(store)
    ensures forall m, i :: m in store && InConversation(m, c) && 0 <= i < |r| && m.timestamp > r[i].timestamp ==> m in r
  {
    var matching := Matching(store, c);
    forall i | 0 <= i < |r| ensures InConversation(r[i], c) {
      assert r[i] in multiset(matching);
    }
  }

  /** Lists a conversation: the most recent messages (`limit`, by default
      50) matching it, oldest first. */
  function GetMessages(store: seq<Message>, room: Option<string>, recipientId: Option<UserId>,
                       limit: Option<nat>, me: UserId): (r: Result<seq<Message>>)
    ensures r.Err? <==> !Present(room) && recipientId.None?
    ensures r.Err? ==> r.kind == BadRequest && r.message == RoomOrRecipientRequired
    ensures r.Ok? ==>
      var c := ConversationOf(room, recipientId, me).value;
      && (forall i :: 0 <= i < |r.value| ==> InConversation(r.value[i], c))
      && multiset(r.value) <= multiset(store)
      && |r.value| == Returned(limit, |Matching(store, c)|)
      && (forall i, j :: 0 <= i < j < |r.value| ==> r.value[i].timestamp <= r.value[j].timestamp)
      && (forall m, i :: m in store && InConversation(m, c) && 0 <= i < |r.value| && m.timestamp > r.value[i].timestamp ==> m in r.value)
  {
    match ConversationOf(room, recipientId, me)
    case None => Err(BadRequest, RoomOrRecipientRequired)
    case Some(c) =>
      var matching := Matching(store, c);
      var r := LatestOldestFirst(matching, Returned(limit, |matching|));
      SelectionFacts(store, c, r);
      Ok(r)
  }

  /** Posts a message to a room: content and room are both required. */
  function SendMessage(content: Option<string>, room: Option<string>, me: UserId, now: int, id: nat): (r: Result<Message>)
    ensures r.Err? <==> !Present(content) || !Present(room)
    ensures !Present(content) ==> r == Err(BadRequest, ContentRequired)
    ensures Present(content) && !Present(room) ==> r == Err(BadRequest, RoomRequired)
    ensures r.Ok? ==>
      && r.value.content == content.value
      && r.value.room == room
      && r.value.sender == me
      && r.value.timestamp == now
      && !r.value.isPrivate
      && r.value.recipient.None?
  {
    if !Present(content) then Err(BadRequest, ContentRequired)
    else if !Present(room) then Err(BadRequest, RoomRequired)
    else Ok(Message(id, content.value, room, me, None, false, now))
  }

  /** A message posted later than every stored one is the last message of
      its room's listing, whatever the limit. */
  lemma SentMessageListedLast(store: seq<Message>, content: Option<string>, room: Option<string>,
                              me: UserId, now: int, id: nat, limit: Option<nat>,
                              recipientId: Option<UserId>, viewer: UserId)
    requires SendMessage(content, room, me, now, id).Ok?
    requires forall i :: 0 <= i < |store| ==> store[i].timestamp < now
    ensures
      var msg := SendMessage(content, room, me, now, id).value;
      var r := GetMessages(store + [msg], room, recipientId, limit, viewer);
      r.Ok? && |r.value| > 0 && r.value[|r.value| - 1] == msg
  {
    var msg := SendMessage(content, room, me, now, id).value;
    var s' := store + [msg];
    var c := RoomChat(room.value);
    assert ConversationOf(room, recipientId, viewer) == Some(c);
    var r := GetMessages(s', room, recipientId, limit, viewer).value;
    assert msg in Matching(s', c) by {
      assert InConversation(msg, c);
    }
    OthersOlder(store, msg, r);
    assert msg in r by {
      if r[0] != msg {
        assert msg.timestamp > r[0].timestamp;
      }
    }
    StrictlyNewestIsLast(r, msg);
  }

  /** Every message of a selection from `store + [msg]` other than `msg`
      itself comes from `store`, and so is older than `msg` when every
      stored message is. */
  lemma OthersOlder(store: seq<Message>, msg: Message, r: seq<Message>)
    requires multiset(r) <= multiset(store + [msg])
    requires forall i :: 0 <= i < |store| ==> store[i].timestamp < msg.timestamp
    ensures forall i :: 0 <= i < |r| && r[i] != msg ==> r[i].timestamp < msg.timestamp
  {
    forall i | 0 <= i < |r| && r[i] != msg ensures r[i].timestamp < msg.timestamp {
      assert r[i] in multiset(store + [msg]);
      assert r[i] in store + [msg];
      assert r[i] in store;
    }
  }

  /** In a listing ordered oldest first, a message strictly newer than every
      other listed message is the last one. */
  lemma StrictlyNewestIsLast(r: seq<Message>, msg: Message)
    requires msg in r
    requires forall i, j :: 0 <= i < j < |r| ==> r[i].timestamp <= r[j].timestamp
    requires forall i :: 0 <= i < |r| && r[i] != msg ==> r[i].timestamp < msg.timestamp
    ensures r[|r| - 1] == msg
  {
    var q :| 0 <= q < |r| && r[q] == msg;
    if q < |r| - 1 {
      assert r[q].timestamp <= r[|r| - 1].timestamp;
    }
  }
}

=== FILE: durations.dfy ===
/** Whole-minute durations computed from millisecond timestamps. */
module Durations {

  /** Milliseconds in one minute. */
  const MsPerMinute: int := 60000

  /** `Math.round(ms / 60000)` for an integral number of milliseconds: the
      nearest whole minute, halves rounded up (towards positive infinity,
      so -30000 ms rounds to 0 and 30000 ms rounds to 1). */
  function RoundMinutes(ms: int): (m: int)
    ensures MsPerMinute * m - MsPerMinute / 2 <= ms < MsPerMinute * m + MsPerMinute / 2
  {
    (ms + MsPerMinute / 2) / MsPerMinute
  }

  /** The rounding is the unique whole minute within half a minute below and
      strictly less than half a minute above. */
  lemma RoundMinutesUnique(ms: int, m: int)
    requires MsPerMinute * m - MsPerMinute / 2 <= ms < MsPerMinute * m + MsPerMinute / 2
    ensures RoundMinutes(ms) == m
  {
  }

  /** A whole number of minutes rounds to itself. */
  lemma RoundWholeMinutes(k: int)
    ensures RoundMinutes(MsPerMinute * k) == k
  {
    RoundMinutesUnique(MsPerMinute * k, k);
  }

  /** Rounding to minutes never reverses the order of two durations. */
  lemma RoundMinutesMonotone(a: int, b: int)
    requires a <= b
    ensures RoundMinutes(a) <= RoundMinutes(b)
  {
  }
}

=== FILE: forum.dfy ===
/** The discussion forum: listing posts by category with pinned-first,
    newest-first ordering and page arithmetic; creating a post; reading a
    post, which counts a view; replying to a post. */
module Forum {
  import opened Results
  import opened Search
  import opened Sorting

  type UserId = nat

  datatype Reply = Reply(content: string, author: UserId)

  /** A stored forum post. */
  datatype Post = Post(
    id: nat,
    title: string,
    content: string,
    category: string,
    tags: seq<string>,
    author: UserId,
    views: int,
    isPinned: bool,
    timestamp: int,
    replies: seq<Reply>)

  const DefaultPage: int := 1
  const DefaultLimit: nat := 10
  const DefaultCategory := "general"
  /** The category value that disables the category filter. */
  const AllCategories := "all"

  const ServerErrorMessage := "Server error"
  const TitleContentRequired := "Title and content are required"
  const PostNotFound := "Post not found"
  const ReplyContentRequired := "Reply content is required"

  /** The category filter of a listing: none when the category is absent,
      empty or "all". */
  function CategoryFilter(category: Option<string>): (f: Option<string>)
    ensures f.None? <==> !Present(category) || category.value == AllCategories
    ensures f.Some? ==> f == category
  {
    if Present(category) && category.value != AllCategories then category else None
  }

  predicate Listed(p: Post, f: Option<string>) {
    f.None? || p.category == f.value
  }

  /** The posts of the store the listing query matches. */
  function Matching(store: seq<Post>, f: Option<string>): (r: seq<Post>)
    ensures forall i :: 0 <= i < |r| ==> r[i] in store && Listed(r[i], f)
    ensures forall p :: p in store && Listed(p, f) ==> p in r
    ensures multiset(r) <= multiset(store)
    ensures forall i :: 0 <= i < |store| && Listed(store[i], f) ==> multiset(r)[store[i]] == multiset(store)[store[i]]
  {
    Filter(store, (p: Post) => Listed(p, f))
  }

  /** The sort key of `sort({isPinned: -1, timestamp: -1})`. */
  function PinnedThenNewest(p: Post): (int, int) {
    (if p.isPinned then 1 else 0, p.timestamp)
  }

  /** The matching posts in listing order. */
  function Ranked(store: seq<Post>, f: Option<string>): (r: seq<Post>)
    ensures SortedDesc(r, PinnedThenNewest)
    ensures multiset(r) == multiset(Matching(store, f))
    ensures |r| == |Matching(store, f)|
  {
    var r := SortDesc(Matching(store, f), PinnedThenNewest);
    assert |multiset(r)| == |multiset(Matching(store, f))|;
    r
  }

  /** The offset of a page, `(page - 1) * limit`. */
  function Offset(page: int, limit: nat): int {
    (page - 1) * limit
  }

  /** `ceil(total / limit)` for a positive limit. */
  function PageCount(total: nat, limit: nat): (t: nat)
    requires limit > 0
    ensures limit * t >= total
    ensures limit * (t - 1) < total
  {
    (total + limit - 1) / limit
  }

  /** One page of the listing with the page arithmetic. `totalPages` is
      absent when the limit is 0, where the division yields no number. */
  datatype PostPage = PostPage(posts: seq<Post>, totalPages: Option<nat>, currentPage: int, total: nat)

  /** The number of posts after skipping `skip` of `total`, at most `limit`
      of them unless the limit is 0 (no limit). */
  function PageSize(total: nat, skip: nat, limit: nat): (n: nat)
    ensures skip + n <= total || n == 0
    ensures limit > 0 ==> n <= limit
    ensures skip < total && limit > 0 ==> n == if total - skip < limit then total - skip else limit
    ensures skip < total && limit == 0 ==> n == total - skip
  {
    if skip >= total then 0
    else if limit == 0 || total - skip < limit then total - skip
    else limit
  }

  /** The page at offset `skip` of the ranked matching posts: at most
      `limit` of them (all when the limit is 0), in listing order. */
  function ListPage(store: seq<Post>, f: Option<string>, skip: nat, limit: nat): (posts: seq<Post>)
    ensures |posts| == PageSize(|Matching(store, f)|, skip, limit)
    ensures forall i :: 0 <= i < |posts| ==> posts[i] == Ranked(store, f)[skip + i]
    ensures forall i :: 0 <= i < |posts| ==> Listed(posts[i], f) && posts[i] in store
    ensures SortedDesc(posts, PinnedThenNewest)
  {
    var n := PageSize(|Matching(store, f)|, skip, limit);
    PageFacts(store, f, skip, n);
    Slice(Ranked(store, f), skip, n)
  }

  /** Lists a page of posts: pinned first, then newest; page `page` of
      `limit` posts starts at offset `(page - 1) * limit`. A negative offset
      is refused by the store. */
  function GetPosts(store: seq<Post>, category: Option<string>, page: Option<int>, limit: Option<nat>): (r: Result<PostPage>)
    ensures r.Err? <==> Offset(page.GetOr(DefaultPage), limit.GetOr(DefaultLimit)) < 0
    ensures r.Err? ==> r.kind == ServerError && r.message == ServerErrorMessage
    ensures r.Ok? ==>
      var f := CategoryFilter(category);
      var lim := limit.GetOr(DefaultLimit);
      var skip := Offset(page.GetOr(DefaultPage), lim);
      && skip >= 0
      && r.value.posts == ListPage(store, f, skip, lim)
      && r.value.total == |Matching(store, f)|
      && (r.value.totalPages.None? <==> lim == 0)
      && (lim > 0 ==> r.value.totalPages == Some(PageCount(r.value.total, lim)))
      && r.value.currentPage == page.GetOr(DefaultPage)
  {
    var pg := page.GetOr(DefaultPage);
    var lim := limit.GetOr(DefaultLimit);
    var skip := Offset(pg, lim);
    if skip < 0 then Err(ServerError, ServerErrorMessage)
    else
      var f := CategoryFilter(category);
      var total := |Matching(store, f)|;
      Ok(PostPage(ListPage(store, f, skip, lim), if lim == 0 then None else Some(PageCount(total, lim)), pg, total))
  }

  /** The `n` elements of `s` from offset `skip`. */
  function Slice<T>(s: seq<T>, skip: nat, n: nat): (r: seq<T>)
    requires n == 0 || skip + n <= |s|
    ensures |r| == n
    ensures forall i :: 0 <= i < n ==> r[i] == s[skip + i]
  {
    if n == 0 then [] else s[skip..skip + n]
  }

  /** A slice of the ranking is ordered, and holds matching stored posts. */
  lemma PageFacts(store: seq<Post>, f: Option<string>, skip: nat, n: nat)
    requires n == 0 || skip + n <= |Ranked(store, f)|
    ensures var posts := Slice(Ranked(store, f), skip, n);
      && SortedDesc(posts, PinnedThenNewest)
      && forall i :: 0 <= i < |posts| ==> Listed(posts[i], f) && posts[i] in store
  {
    var ranked := Ranked(store, f);
    var posts := Slice(ranked, skip, n);
    forall i | 0 <= i < |posts| ensures Listed(posts[i], f) && posts[i] in store {
      assert posts[i] == ranked[skip + i];
      assert ranked[skip + i] in multiset(Matching(store, f));
    }
  }

  /** Paging covers the listing: the post at rank `pos` is at index
      `pos % limit` of page `pos / limit + 1`, which is within the page
      count. */
  lemma PageCovers(store: seq<Post>, category: Option<string>, limit: nat, pos: nat) returns (page: int, i: nat)
    requires limit > 0
    requires pos < |Ranked(store, CategoryFilter(category))|
    ensures page == pos / limit + 1 && i == pos % limit
    ensures var r := GetPosts(store, category, Some(page), Some(limit));
      && r.Ok?
      && i < |r.value.posts|
      && r.value.posts[i] == Ranked(store, CategoryFilter(category))[pos]
      && page <= r.value.totalPages.value
  {
    page, i := PageArithmetic(limit, pos);
    PageAt(store, category, limit, page, i);
  }

  /** Index `i` of page `page` holds the post ranked `(page - 1) * limit + i`
      when there is one, and that page is within the page count. */
  lemma PageAt(store: seq<Post>, category: Option<string>, limit: nat, page: int, i: nat)
    requires limit > 0 && page >= 1 && i < limit
    requires Offset(page, limit) + i < |Ranked(store, CategoryFilter(category))|
    ensures var r := GetPosts(store, category, Some(page), Some(limit));
      && r.Ok?
      && i < |r.value.posts|
      && r.value.posts[i] == Ranked(store, CategoryFilter(category))[Offset(page, limit) + i]
      && page <= r.value.totalPages.value
  {
    var f := CategoryFilter(category);
    var skip := Offset(page, limit);
    GetPostsPage(store, category, limit, page);
    PageEntry(store, f, limit, skip, i);
    PageWithinCount(|Matching(store, f)|, limit, page, i);
  }

  /** A page from 1 on is listed. */
  lemma GetPostsPage(store: seq<Post>, category: Option<string>, limit: nat, page: int)
    requires limit > 0 && page >= 1
    ensures Offset(page, limit) >= 0
    ensures var r := GetPosts(store, category, Some(page), Some(limit));
      && r.Ok?
      && r.value.posts == ListPage(store, CategoryFilter(category), Offset(page, limit), limit)
      && r.value.totalPages == Some(PageCount(|Matching(store, CategoryFilter(category))|, limit))
  {
    MulMonotone(0, page - 1, limit);
  }

  lemma PageEntry(store: seq<Post>, f: Option<string>, limit: nat, skip: nat, i: nat)
    requires limit > 0 && i < limit
    requires skip + i < |Ranked(store, f)|
    ensures i < |ListPage(store, f, skip, limit)|
    ensures ListPage(store, f, skip, limit)[i] == Ranked(store, f)[skip + i]
  {
  }

  /** A page holding a ranked post is within the page count. */
  lemma PageWithinCount(total: nat, limit: nat, page: int, i: nat)
    requires limit > 0 && page >= 1 && i < limit && Offset(page, limit) + i < total
    ensures page <= PageCount(total, limit)
  {
    var t := PageCount(total, limit);
    if page > t {
      MulMonotone(t, page - 1, limit);
    }
  }

  /** Rank `pos` falls at index `pos % limit` of page `pos / limit + 1`. */
  lemma PageArithmetic(limit: nat, pos: nat) returns (page: int, i: nat)
    requires limit > 0
    ensures page == pos / limit + 1 && i == pos % limit
    ensures page >= 1 && i < limit && Offset(page, limit) + i == pos
  {
    page, i := pos / limit + 1, pos % limit;
  }

  lemma MulMonotone(a: int, b: int, c: nat)
    requires a <= b
    ensures a * c <= b * c
  {
  }

  /** Creates a post: title and content are required; the category
      defaults to "general" and the tags to none. */
  function CreatePost(title: Option<string>, content: Option<string>, category: Option<string>,
                      tags: Option<seq<string>>, me: UserId, id: nat, now: int): (r: Result<Post>)
    ensures r.Err? <==> !Present(title) || !Present(content)
    ensures r.Err? ==> r.kind == BadRequest && r.message == TitleContentRequired
    ensures r.Ok? ==>
      && r.value.id == id
      && r.value.title == title.value
      && r.value.content == content.value
      && r.value.category == (if Present(category) then category.value else DefaultCategory)
      && r.value.tags == (if tags.Some? then tags.value else [])
      && r.value.author == me
      && r.value.views == 0
      && !r.value.isPinned
      && r.value.timestamp == now
      && r.value.replies == []
  {
    if !Present(title) || !Present(content) then Err(BadRequest, TitleContentRequired)
    else
      var cat := if Present(category) then category.value else DefaultCategory;
      Ok(Post(id, title.value, content.value, cat, tags.GetOr([]), me, 0, false, now, []))
  }

  /** The store after an update, and the record the handler answers with. */
  datatype Updated<T> = Updated(posts: seq<Post>, answer: T)

  function IdIs(id: nat): Post -> bool {
    (p: Post) => p.id == id
  }

  /** Reads a post: the view count goes up by one and nothing else of the
      store changes. */
  function GetPost(store: seq<Post>, id: nat): (r: Result<Updated<Post>>)
    ensures r.Err? <==> forall i :: 0 <= i < |store| ==> store[i].id != id
    ensures r.Err? ==> r.kind == NotFound && r.message == PostNotFound
    ensures r.Ok? ==>
      var i := FindFirst(store, IdIs(id)).value;
      var store' := r.value.posts;
      var post := r.value.answer;
      && |store'| == |store|
      && (forall j :: 0 <= j < |store| && j != i ==> store'[j] == store[j])
      && post == store'[i]
      && post.id == id
      && post.views == store[i].views + 1
      && post.(views := store[i].views) == store[i]
  {
    match FindFirst(store, IdIs(id))
    case None => Err(NotFound, PostNotFound)
    case Some(i) =>
      var post := store[i].(views := store[i].views + 1);
      Ok(Updated(store[i := post], post))
  }

  /** Replies to a post: the content is checked before the post is looked
      up; the reply goes at the end of the post's replies and is returned. */
  function AddReply(store: seq<Post>, id: nat, content: Option<string>, me: UserId): (r: Result<Updated<Reply>>)
    ensures !Present(content) ==> r == Err(BadRequest, ReplyContentRequired)
    ensures Present(content) ==>
      (r.Err? <==> forall i :: 0 <= i < |store| ==> store[i].id != id)
    ensures Present(content) && r.Err? ==> r.kind == NotFound && r.message == PostNotFound
    ensures r.Ok? ==>
      var i := FindFirst(store, IdIs(id)).value;
      var store' := r.value.posts;
      var reply := r.value.answer;
      && |store'| == |store|
      && (forall j :: 0 <= j < |store| && j != i ==> store'[j] == store[j])
      && store'[i].replies == store[i].replies + [reply]
      && store'[i].(replies := store[i].replies) == store[i]
      && reply == store'[i].replies[|store'[i].replies| - 1]
      && reply.content == content.value
      && reply.author == me
  {
    if !Present(content) then Err(BadRequest, ReplyContentRequired)
    else
      match FindFirst(store, IdIs(id))
      case None => Err(NotFound, PostNotFound)
      case Some(i) =>
        var reply := Reply(content.value, me);
        Ok(Updated(store[i := store[i].(replies := store[i].replies + [reply])], reply))
  }

  /** A created post stored under a fresh id is found by its id, with its
      first view counted. */
  lemma CreatedPostReadable(store: seq<Post>, title: Option<string>, content: Option<string>,
                            category: Option<string>, tags: Option<seq<string>>, me: UserId, id: nat, now: int)
    requires CreatePost(title, content, category, tags, me, id, now).Ok?
    requires forall i :: 0 <= i < |store| ==> store[i].id != id
    ensures var p := CreatePost(title, content, category, tags, me, id, now).value;
      var r := GetPost(store + [p], id);
      && r.Ok?
      && r.value.answer == p.(views := 1)
      && r.value.posts == store + [p.(views := 1)]
  {
    var p := CreatePost(title, content, category, tags, me, id, now).value;
    var s := store + [p];
    assert FindFirst(s, IdIs(id)) == Some(|store|) by {
      assert IdIs(id)(s[|store|]);
      assert forall j :: 0 <= j < |store| ==> !IdIs(id)(s[j]);
    }
  }

  /** Two reads of a post count two views and change nothing else. */
  lemma TwoReadsTwoViews(store: seq<Post>, id: nat)
    requires exists i :: 0 <= i < |store| && store[i].id == id
    ensures var r1 := GetPost(store, id);
      var r2 := GetPost(r1.value.posts, id);
      var i := FindFirst(store, IdIs(id)).value;
      && r1.Ok? && r2.Ok?
      && r2.value.answer.views == store[i].views + 2
      && r2.value.answer.(views := store[i].views) == store[i]
      && |r2.value.posts| == |store|
      && r2.value.posts[i] == r2.value.answer
      && (forall j :: 0 <= j < |store| && j != i ==> r2.value.posts[j] == store[j])
  {
    var i := FindFirst(store, IdIs(id)).value;
    var r1 := GetPost(store, id).value;
    FindFirstStable(store, r1.posts, IdIs(id), i);
  }

  /** A reply is the last reply of the post when it is read next. */
  lemma ReplyReadBack(store: seq<Post>, id: nat, content: Option<string>, me: UserId)
    requires AddReply(store, id, content, me).Ok?
    ensures var s1 := AddReply(store, id, content, me).value.posts;
      var reply := AddReply(store, id, content, me).value.answer;
      var r := GetPost(s1, id);
      && r.Ok?
      && |r.value.answer.replies| > 0
      && r.value.answer.replies[|r.value.answer.replies| - 1] == reply
  {
    var i := FindFirst(store, IdIs(id)).value;
    var s1 := AddReply(store, id, content, me).value.posts;
    FindFirstStable(store, s1, IdIs(id), i);
  }
}

=== FILE: results.dfy ===
/** Failure-carrying values shared by every controller of the model.

    A controller either answers with a value or with an HTTP error status and a
    message. The four error kinds are the status codes the controllers use:
    400, 403, 404 and 500.
 */
module Results {

  /** An optional value: a field or request parameter that may be absent. */
  datatype Option<+T> = None | Some(value: T) {

    /** The value, or `default` when absent. */
    function GetOr(default: T): T {
      match this
      case Some(v) => v
      case None => default
    }
  }

  /** The error statuses a controller answers with. */
  datatype ErrorKind = BadRequest | Forbidden | NotFound | ServerError

  /** A controller outcome: a value, or an error status with its message. */
  datatype Result<+T> = Ok(value: T) | Err(kind: ErrorKind, message: string)

  /** JavaScript truthiness of an optional string parameter: absent and the
      empty string are both falsy. */
  predicate Present(s: Option<string>) {
    s.Some? && s.value != ""
  }
}

=== FILE: search.dfy ===
/** Linear search as done by `Array.prototype.find` and by a find-by-id over a
    collection: the FIRST element satisfying a predicate. */
module Search {
  import opened Results

  /** The first index of `s` whose element satisfies `p`, if any. */
  function FindFirst<T>(s: seq<T>, p: T -> bool): (r: Option<nat>)
    ensures r.None? <==> forall i :: 0 <= i < |s| ==> !p(s[i])
    ensures r.Some? ==> r.value < |s| && p(s[r.value])
    ensures r.Some? ==> forall j :: 0 <= j < r.value ==> !p(s[j])
  {
    if |s| == 0 then None
    else if p(s[0]) then Some(0)
    else
      match FindFirst(s[1..], p)
      case None => None
      case Some(k) => Some(k + 1)
  }

  /** `i` is the index of the first element of `s` satisfying `p`. */
  ghost predicate IsFirst<T>(s: seq<T>, p: T -> bool, i: int) {
    0 <= i < |s| && p(s[i]) && forall j :: 0 <= j < i ==> !p(s[j])
  }

  /** At most one index can be the first. */
  lemma FirstIsUnique<T>(s: seq<T>, p: T -> bool, i: int, j: int)
    requires IsFirst(s, p, i) && IsFirst(s, p, j)
    ensures i == j
  {
  }

  /** The first match stays first when no element up to it changes its
      verdict. */
  lemma FindFirstStable<T>(s: seq<T>, s': seq<T>, p: T -> bool, i: nat)
    requires FindFirst(s, p) == Some(i)
    requires i < |s'| && p(s'[i])
    requires forall j :: 0 <= j < i ==> s'[j] == s[j]
    ensures FindFirst(s', p) == Some(i)
  {
    assert !FindFirst(s', p).None?;
  }

  /** The elements of `s` satisfying `p`, in order, as a store query
      returns the matching records. */
  function Filter<T>(s: seq<T>, p: T -> bool): (r: seq<T>)
    ensures forall i :: 0 <= i < |r| ==> r[i] in s && p(r[i])
    ensures forall i :: 0 <= i < |s| && p(s[i]) ==> s[i] in r
    ensures multiset(r) <= multiset(s)
    ensures forall i :: 0 <= i < |s| && p(s[i]) ==> multiset(r)[s[i]] == multiset(s)[s[i]]
    ensures |r| <= |s|
    decreases |s|
  {
    if |s| == 0 then []
    else
      var rest := Filter(s[1..], p);
      assert s == [s[0]] + s[1..];
      assert multiset(s) == multiset{s[0]} + multiset(s[1..]);
      var r := if p(s[0]) then [s[0]] + rest else rest;
      assert multiset(r) == (if p(s[0]) then multiset{s[0]} else multiset{}) + multiset(rest);
      assert forall i :: 0 <= i < |s| && p(s[i]) ==> multiset(r)[s[i]] == multiset(s)[s[i]] by {
        forall i | 0 <= i < |s| && p(s[i]) ensures multiset(r)[s[i]] == multiset(s)[s[i]] {
          if i > 0 {
            assert s[i] == s[1..][i - 1];
          } else if s[0] in s[1..] {
            var j :| 0 <= j < |s[1..]| && s[1..][j] == s[0];
          }
        }
      }
      r
  }
}

=== FILE: sorting.dfy ===
/** Descending sort on a two-part key, as a document store applies a
    `sort({a: -1, b: -1})` specification: larger first component first, ties
    broken by the larger second component. The store leaves the order of
    equal keys unspecified; this model keeps them in storage order. */
module Sorting {

  /** Lexicographic "at least" on sort keys. */
  predicate KeyGe(a: (int, int), b: (int, int)) {
    a.0 > b.0 || (a.0 == b.0 && a.1 >= b.1)
  }

  /** `s` is ordered by non-increasing key. */
  ghost predicate SortedDesc<T>(s: seq<T>, key: T -> (int, int)) {
    forall i, j :: 0 <= i < j < |s| ==> KeyGe(key(s[i]), key(s[j]))
  }

  /** Inserts `x` into a descending sequence before the first element whose
      key is not larger than its own. */
  function Insert<T(==)>(x: T, s: seq<T>, key: T -> (int, int)): (r: seq<T>)
    requires SortedDesc(s, key)
    ensures SortedDesc(r, key)
    ensures multiset(r) == multiset(s) + multiset{x}
  {
    if |s| == 0 then [x]
    else if KeyGe(key(x), key(s[0])) then [x] + s
    else
      var rest := Insert(x, s[1..], key);
      HeadDominates(x, s, rest, key);
      assert s == [s[0]] + s[1..];
      [s[0]] + rest
  }

  /** When `x` goes after the head of `s`, the head's key bounds every key of
      the sequence `x` is inserted into. */
  lemma HeadDominates<T>(x: T, s: seq<T>, rest: seq<T>, key: T -> (int, int))
    requires |s| > 0 && SortedDesc(s, key) && !KeyGe(key(x), key(s[0]))
    requires SortedDesc(rest, key)
    requires multiset(rest) == multiset(s[1..]) + multiset{x}
    ensures SortedDesc([s[0]] + rest, key)
  {
    forall j | 0 <= j < |rest|
      ensures KeyGe(key(s[0]), key(rest[j]))
    {
      assert rest[j] in multiset(rest);
      if rest[j] != x {
        assert rest[j] in multiset(s[1..]);
        var k :| 0 <= k < |s[1..]| && s[1..][k] == rest[j];
        assert s[k + 1] == rest[j];
      }
    }
    var r := [s[0]] + rest;
    forall i, j | 0 <= i < j < |r|
      ensures KeyGe(key(r[i]), key(r[j]))
    {
      if i == 0 {
        assert r[j] == rest[j - 1];
      } else {
        assert r[i] == rest[i - 1] && r[j] == rest[j - 1];
      }
    }
  }

  /** A descending permutation of `s` (insertion sort). */
  function SortDesc<T(==)>(s: seq<T>, key: T -> (int, int)): (r: seq<T>)
    ensures SortedDesc(r, key)
    ensures multiset(r) == multiset(s)
  {
    if |s| == 0 then []
    else
      assert s == [s[0]] + s[1..];
      Insert(s[0], SortDesc(s[1..], key), key)
  }
}

=== FILE: tasks.dfy ===
/** The task document of the time-tracking core: a task owned by one
    employee, carrying a log of work sessions ("time entries"), each holding
    the breaks taken during it. Timestamps are milliseconds since the epoch. */
module Tasks {
  import opened Results
  import opened Search
  import opened Durations

  type EmployeeId = nat
  type TaskId = nat
  type EntryId = nat

  datatype Status = New | Active | Completed | Failed

  /** A pause inside a work session. `end` is absent while the break is in
      progress; `duration` (whole minutes) is written when it is closed. */
  datatype Break = Break(start: int, end: Option<int>, duration: Option<int>)

  /** One work session. `endTime` is absent while the session is in progress;
      `totalDuration` (whole minutes worked, breaks excluded) is written when
      it is closed. An unset or not-a-number duration is `None`. */
  datatype TimeEntry = TimeEntry(
    id: EntryId,
    startTime: int,
    endTime: Option<int>,
    description: string,
    breaks: seq<Break>,
    totalDuration: Option<int>)

  datatype Task = Task(
    id: TaskId,
    title: string,
    category: string,
    assignedTo: EmployeeId,
    status: Status,
    timeEntries: seq<TimeEntry>)

  /** Who makes a request: the role from the authentication context and the
      employee record found for the caller's username, if any. */
  datatype Role = AdminRole | EmployeeRole
  datatype Actor = Actor(role: Role, employee: Option<EmployeeId>)

  /** The caller is the employee the task is assigned to. */
  predicate IsAssignee(t: Task, a: Actor) {
    a.employee == Some(t.assignedTo)
  }

  predicate IsOpenEntry(e: TimeEntry) { e.endTime.None? }
  predicate IsOpenBreak(b: Break) { b.end.None? }

  ghost predicate HasOpenEntry(t: Task) {
    exists i :: 0 <= i < |t.timeEntries| && IsOpenEntry(t.timeEntries[i])
  }

  ghost predicate HasOpenBreak(e: TimeEntry) {
    exists k :: 0 <= k < |e.breaks| && IsOpenBreak(e.breaks[k])
  }

  /** The entry `find(entry => !entry.endTime)` returns. */
  function ActiveEntry(t: Task): (r: Option<nat>)
    ensures r.None? <==> !HasOpenEntry(t)
    ensures r.Some? ==> IsFirst(t.timeEntries, IsOpenEntry, r.value)
  {
    FindFirst(t.timeEntries, IsOpenEntry)
  }

  /** The break `find(b => !b.end)` returns. */
  function ActiveBreak(e: TimeEntry): (r: Option<nat>)
    ensures r.None? <==> !HasOpenBreak(e)
    ensures r.Some? ==> IsFirst(e.breaks, IsOpenBreak, r.value)
  {
    FindFirst(e.breaks, IsOpenBreak)
  }

  /** Index of the task's first open entry. */
  function FirstOpen(t: Task): (i: nat)
    requires HasOpenEntry(t)
    ensures IsFirst(t.timeEntries, IsOpenEntry, i)
  {
    ActiveEntry(t).value
  }

  /** Index of the entry's first open break. */
  function FirstOpenBreak(e: TimeEntry): (k: nat)
    requires HasOpenBreak(e)
    ensures IsFirst(e.breaks, IsOpenBreak, k)
  {
    ActiveBreak(e).value
  }

  /** The three states of the time-tracking state machine, derived from the
      task's entries. */
  datatype TrackingState = Idle | Working | OnBreak

  function StateOf(t: Task): (s: TrackingState)
    ensures s == Idle <==> !HasOpenEntry(t)
    ensures s == OnBreak <==> HasOpenEntry(t) && HasOpenBreak(t.timeEntries[FirstOpen(t)])
  {
    match ActiveEntry(t)
    case None => Idle
    case Some(i) => if ActiveBreak(t.timeEntries[i]).Some? then OnBreak else Working
  }

  /** Minutes of break recorded in `bs`; a break without a duration counts 0. */
  function BreakMinutes(bs: seq<Break>): int {
    if |bs| == 0 then 0 else bs[0].duration.GetOr(0) + BreakMinutes(bs[1..])
  }

  /** Every break of `bs` has a recorded duration. */
  predicate AllTimed(bs: seq<Break>) {
    forall k :: 0 <= k < |bs| ==> bs[k].duration.Some?
  }

  /** Minutes worked in a session of `elapsed` milliseconds with breaks `bs`:
      elapsed time less all break minutes, rounded to a whole minute. A break
      without a duration makes the JavaScript sum not a number (`None`). */
  function WorkedMinutes(bs: seq<Break>, elapsed: int): (r: Option<int>)
    ensures r.Some? <==> AllTimed(bs)
    ensures r.Some? ==>
      var net := elapsed - MsPerMinute * BreakMinutes(bs);
      MsPerMinute * r.value - MsPerMinute / 2 <= net < MsPerMinute * r.value + MsPerMinute / 2
  {
    if AllTimed(bs) then Some(RoundMinutes(elapsed - MsPerMinute * BreakMinutes(bs))) else None
  }

  /** A closed break carries the rounding of its own length; an open one has
      no duration yet. */
  ghost predicate BreakConsistent(b: Break) {
    match b.end
    case None => b.duration.None?
    case Some(end) => b.duration == Some(RoundMinutes(end - b.start))
  }

  ghost predicate AtMostOneOpenBreak(e: TimeEntry) {
    forall k, l ::
      0 <= k < |e.breaks| && 0 <= l < |e.breaks| && IsOpenBreak(e.breaks[k]) && IsOpenBreak(e.breaks[l])
      ==> k == l
  }

  /** The entry-level invariants: at most one open break; a closed entry has
      no open break and carries its worked minutes; an open one has none. */
  ghost predicate EntryWellFormed(e: TimeEntry) {
    && (forall k :: 0 <= k < |e.breaks| ==> BreakConsistent(e.breaks[k]))
    && AtMostOneOpenBreak(e)
    && match e.endTime
       case None => e.totalDuration.None?
       case Some(end) => !HasOpenBreak(e) && e.totalDuration == WorkedMinutes(e.breaks, end - e.startTime)
  }

  /** The task-level invariants: at most one open entry, and every entry well
      formed. */
  ghost predicate WellFormed(t: Task) {
    && (forall i, j ::
          (0 <= i < |t.timeEntries| && 0 <= j < |t.timeEntries|
           && IsOpenEntry(t.timeEntries[i]) && IsOpenEntry(t.timeEntries[j])) ==> i == j)
    && (forall i :: 0 <= i < |t.timeEntries| ==> EntryWellFormed(t.timeEntries[i]))
  }

  /** The breaks lie in order inside `[from, upto]`, do not overlap, and
      only the last may be open. */
  ghost predicate BreaksWithin(bs: seq<Break>, from: int, upto: int)
    decreases |bs|
  {
    if |bs| == 0 then from <= upto
    else
      && from <= bs[0].start
      && match bs[0].end
         case None => |bs| == 1 && bs[0].start <= upto
         case Some(end) => bs[0].start <= end && BreaksWithin(bs[1..], end, upto)
  }

  /** The entry's timestamps are in clock order and none is later than `now`. */
  ghost predicate EntryChronological(e: TimeEntry, now: int) {
    match e.endTime
    case None => BreaksWithin(e.breaks, e.startTime, now)
    case Some(end) => BreaksWithin(e.breaks, e.startTime, end) && end <= now
  }

  ghost predicate Chronological(t: Task, now: int) {
    forall i :: 0 <= i < |t.timeEntries| ==> EntryChronological(t.timeEntries[i], now)
  }
}

=== FILE: time_tracking.dfy ===
/** The time-tracking state machine of a task: start a session, take a break,
    resume, end the day; plus the description edit of a time entry. Each
    transition inspects the first open entry (and within it the first open
    break), exactly as the controller's `find` calls do, and returns the
    updated task or the controller's error. The clock reading `now` and the
    identifier the document store gives a new entry are parameters. */
module TimeTracking {
  import opened Results
  import opened Search
  import opened Durations
  import opened Tasks

  const TaskNotFound := "Task not found"
  const NotAuthorized := "Not authorized"
  const AlreadyInProgress := "Task is already in progress"
  const NoActiveSession := "No active task session found"
  const BreakInProgress := "Break is already in progress"
  const NoActiveBreak := "No active break found"
  const EntryNotFound := "Time entry not found"
  const StartedDescription := "Started working on the task"
  const DefaultEndDescription := "Worked on the task"

  /** `t'` differs from `t` in entry `i` at most. */
  ghost predicate OnlyEntryChanged(t: Task, t': Task, i: nat) {
    && i < |t.timeEntries|
    && |t'.timeEntries| == |t.timeEntries|
    && t'.(timeEntries := t.timeEntries) == t
    && forall j :: 0 <= j < |t.timeEntries| && j != i ==> t'.timeEntries[j] == t.timeEntries[j]
  }

  /** The entry a successful start appends. */
  function OpenedEntry(id: EntryId, now: int): TimeEntry {
    TimeEntry(id, now, None, StartedDescription, [], None)
  }

  /** A break ended at `now`, with its length rounded to whole minutes. */
  function CloseBreak(b: Break, now: int): (c: Break)
    ensures c.start == b.start && c.end == Some(now) && c.duration.Some?
    ensures MsPerMinute * c.duration.value - MsPerMinute / 2 <= now - b.start
    ensures now - b.start < MsPerMinute * c.duration.value + MsPerMinute / 2
  {
    Break(b.start, Some(now), Some(RoundMinutes(now - b.start)))
  }

  /** `bs` with its first open break (if any) closed at `now`. */
  function CloseOpenBreak(bs: seq<Break>, now: int): (r: seq<Break>)
    ensures |r| == |bs|
    ensures forall k :: 0 <= k < |bs| && !IsFirst(bs, IsOpenBreak, k) ==> r[k] == bs[k]
    ensures forall k :: IsFirst(bs, IsOpenBreak, k) ==> r[k] == CloseBreak(bs[k], now)
  {
    match FindFirst(bs, IsOpenBreak)
    case None => bs
    case Some(k) =>
      forall j | IsFirst(bs, IsOpenBreak, j) ensures j == k {
        FirstIsUnique(bs, IsOpenBreak, j, k);
      }
      bs[k := CloseBreak(bs[k], now)]
  }

  /** Start a work session: refused while any entry is open; otherwise one
      open entry starting now is appended and the task becomes active. */
  function Start(t: Task, now: int, entryId: EntryId): (r: Result<Task>)
    ensures r.Err? <==> HasOpenEntry(t)
    ensures r.Err? ==> r == Err(BadRequest, AlreadyInProgress)
    ensures r.Ok? ==>
      && |r.value.timeEntries| == |t.timeEntries| + 1
      && r.value.timeEntries[..|t.timeEntries|] == t.timeEntries
      && r.value.timeEntries[|t.timeEntries|] == OpenedEntry(entryId, now)
      && r.value.status == Active
      && r.value.(status := t.status, timeEntries := t.timeEntries) == t
  {
    if ActiveEntry(t).Some? then Err(BadRequest, AlreadyInProgress)
    else
      var es := t.timeEntries + [OpenedEntry(entryId, now)];
      assert es[..|t.timeEntries|] == t.timeEntries;
      Ok(t.(status := Active, timeEntries := es))
  }

  /** Take a break: refused without an open entry or when its first open
      entry already has an open break; otherwise one open break starting now
      is appended to that entry and nothing else changes. */
  function TakeBreak(t: Task, now: int): (r: Result<Task>)
    ensures !HasOpenEntry(t) ==> r == Err(BadRequest, NoActiveSession)
    ensures HasOpenEntry(t) && HasOpenBreak(t.timeEntries[FirstOpen(t)]) ==> r == Err(BadRequest, BreakInProgress)
    ensures HasOpenEntry(t) && !HasOpenBreak(t.timeEntries[FirstOpen(t)]) ==>
      && r.Ok?
      && var i := FirstOpen(t);
      && OnlyEntryChanged(t, r.value, i)
      && r.value.timeEntries[i].(breaks := t.timeEntries[i].breaks) == t.timeEntries[i]
      && r.value.timeEntries[i].breaks == t.timeEntries[i].breaks + [Break(now, None, None)]
  {
    match ActiveEntry(t)
    case None => Err(BadRequest, NoActiveSession)
    case Some(i) =>
      var e := t.timeEntries[i];
      if ActiveBreak(e).Some? then Err(BadRequest, BreakInProgress)
      else Ok(t.(timeEntries := t.timeEntries[i := e.(breaks := e.breaks + [Break(now, None, None)])]))
  }

  /** Resume after a break: refused without an open entry or without an open
      break in it; otherwise that break is closed now and nothing else
      changes. */
  function Resume(t: Task, now: int): (r: Result<Task>)
    ensures !HasOpenEntry(t) ==> r == Err(BadRequest, NoActiveSession)
    ensures HasOpenEntry(t) && !HasOpenBreak(t.timeEntries[FirstOpen(t)]) ==> r == Err(BadRequest, NoActiveBreak)
    ensures HasOpenEntry(t) && HasOpenBreak(t.timeEntries[FirstOpen(t)]) ==>
      && r.Ok?
      && var i := FirstOpen(t);
      && var e := t.timeEntries[i];
      && OnlyEntryChanged(t, r.value, i)
      && r.value.timeEntries[i] == e.(breaks := CloseOpenBreak(e.breaks, now))
  {
    match ActiveEntry(t)
    case None => Err(BadRequest, NoActiveSession)
    case Some(i) =>
      var e := t.timeEntries[i];
      if ActiveBreak(e).None? then Err(BadRequest, NoActiveBreak)
      else Ok(t.(timeEntries := t.timeEntries[i := e.(breaks := CloseOpenBreak(e.breaks, now))]))
  }

  /** End the work day: refused without an open entry; otherwise its open
      break (if any) is closed at the clock reading `breakEnd`, then the
      entry is closed at a second reading `now` with the given description
      (or the default when none or empty is given), and its worked minutes
      are recorded. Nothing else changes. */
  function EndDay(t: Task, breakEnd: int, now: int, description: Option<string>): (r: Result<Task>)
    ensures r.Err? <==> !HasOpenEntry(t)
    ensures r.Err? ==> r == Err(BadRequest, NoActiveSession)
    ensures r.Ok? ==>
      && var i := FirstOpen(t);
      && var e := t.timeEntries[i];
      && OnlyEntryChanged(t, r.value, i)
      && var e' := r.value.timeEntries[i];
      && e'.id == e.id && e'.startTime == e.startTime
      && e'.endTime == Some(now)
      && e'.description == (if Present(description) then description.value else DefaultEndDescription)
      && e'.breaks == CloseOpenBreak(e.breaks, breakEnd)
      && e'.totalDuration == WorkedMinutes(e'.breaks, now - e.startTime)
  {
    match ActiveEntry(t)
    case None => Err(BadRequest, NoActiveSession)
    case Some(i) =>
      var e := t.timeEntries[i];
      var bs := CloseOpenBreak(e.breaks, breakEnd);
      var text := if Present(description) then description.value else DefaultEndDescription;
      var closed := TimeEntry(e.id, e.startTime, Some(now), text, bs, WorkedMinutes(bs, now - e.startTime));
      Ok(t.(timeEntries := t.timeEntries[i := closed]))
  }

  /** The entries whose id is `id`. */
  function EntryIdIs(id: EntryId): TimeEntry -> bool {
    (e: TimeEntry) => e.id == id
  }

  /** Replace the description of the first entry whose id is `entryId`;
      refused when no entry has that id. */
  function SetDescription(t: Task, entryId: EntryId, description: string): (r: Result<Task>)
    ensures r.Err? <==> forall j :: 0 <= j < |t.timeEntries| ==> t.timeEntries[j].id != entryId
    ensures r.Err? ==> r == Err(NotFound, EntryNotFound)
    ensures r.Ok? ==>
      var i := FindFirst(t.timeEntries, EntryIdIs(entryId)).value;
      && OnlyEntryChanged(t, r.value, i)
      && r.value.timeEntries[i] == t.timeEntries[i].(description := description)
  {
    match FindFirst(t.timeEntries, EntryIdIs(entryId))
    case None => Err(NotFound, EntryNotFound)
    case Some(i) =>
      var e := t.timeEntries[i];
      Ok(t.(timeEntries := t.timeEntries[i := e.(description := description)]))
  }

  /** Some task of the store has id `id`. */
  ghost predicate Stored(store: seq<Task>, id: TaskId) {
    exists i :: 0 <= i < |store| && store[i].id == id
  }

  /** The task `findById` returns: the first with id `id`. */
  function StoredTask(store: seq<Task>, id: TaskId): (t: Task)
    requires Stored(store, id)
    ensures t.id == id
    ensures exists i :: 0 <= i < |store| && store[i] == t && forall j :: 0 <= j < i ==> store[j].id != id
  {
    var i := FindFirst(store, (t: Task) => t.id == id).value;
    store[i]
  }

  /** The guard every timer operation runs first: the task must exist (404)
      and the caller must be its assignee (403), whatever the caller's role. */
  function LoadForTimer(store: seq<Task>, id: TaskId, actor: Actor): (r: Result<Task>)
    ensures !Stored(store, id) ==> r == Err(NotFound, TaskNotFound)
    ensures Stored(store, id) && !IsAssignee(StoredTask(store, id), actor) ==> r == Err(Forbidden, NotAuthorized)
    ensures Stored(store, id) && IsAssignee(StoredTask(store, id), actor) ==> r == Ok(StoredTask(store, id))
  {
    match FindFirst(store, (t: Task) => t.id == id)
    case None => Err(NotFound, TaskNotFound)
    case Some(_) =>
      var t := StoredTask(store, id);
      if IsAssignee(t, actor) then Ok(t) else Err(Forbidden, NotAuthorized)
  }

  /** `POST /tasks/:id/start`. */
  function StartTask(store: seq<Task>, id: TaskId, actor: Actor, now: int, entryId: EntryId): (r: Result<Task>)
    ensures !Stored(store, id) ==> r == Err(NotFound, TaskNotFound)
    ensures Stored(store, id) && !IsAssignee(StoredTask(store, id), actor) ==> r == Err(Forbidden, NotAuthorized)
    ensures Stored(store, id) && IsAssignee(StoredTask(store, id), actor) ==> r == Start(StoredTask(store, id), now, entryId)
  {
    match LoadForTimer(store, id, actor)
    case Err(k, m) => Err(k, m)
    case Ok(t) => Start(t, now, entryId)
  }

  /** `POST /tasks/:id/break`. */
  function TakeBreakTask(store: seq<Task>, id: TaskId, actor: Actor, now: int): (r: Result<Task>)
    ensures !Stored(store, id) ==> r == Err(NotFound, TaskNotFound)
    ensures Stored(store, id) && !IsAssignee(StoredTask(store, id), actor) ==> r == Err(Forbidden, NotAuthorized)
    ensures Stored(store, id) && IsAssignee(StoredTask(store, id), actor) ==> r == TakeBreak(StoredTask(store, id), now)
  {
    match LoadForTimer(store, id, actor)
    case Err(k, m) => Err(k, m)
    case Ok(t) => TakeBreak(t, now)
  }

  /** `POST /tasks/:id/resume`. */
  function ResumeTask(store: seq<Task>, id: TaskId, actor: Actor, now: int): (r: Result<Task>)
    ensures !Stored(store, id) ==> r == Err(NotFound, TaskNotFound)
    ensures Stored(store, id) && !IsAssignee(StoredTask(store, id), actor) ==> r == Err(Forbidden, NotAuthorized)
    ensures Stored(store, id) && IsAssignee(StoredTask(store, id), actor) ==> r == Resume(StoredTask(store, id), now)
  {
    match LoadForTimer(store, id, actor)
    case Err(k, m) => Err(k, m)
    case Ok(t) => Resume(t, now)
  }

  /** `POST /tasks/:id/endday` with an optional description in the body;
      the clock is read once to close the open break and once more to close
      the entry. */
  function EndTaskDay(store: seq<Task>, id: TaskId, actor: Actor, breakEnd: int, now: int, description: Option<string>): (r: Result<Task>)
    ensures !Stored(store, id) ==> r == Err(NotFound, TaskNotFound)
    ensures Stored(store, id) && !IsAssignee(StoredTask(store, id), actor) ==> r == Err(Forbidden, NotAuthorized)
    ensures Stored(store, id) && IsAssignee(StoredTask(store, id), actor) ==> r == EndDay(StoredTask(store, id), breakEnd, now, description)
  {
    match LoadForTimer(store, id, actor)
    case Err(k, m) => Err(k, m)
    case Ok(t) => EndDay(t, breakEnd, now, description)
  }

  /** `PUT /tasks/:id/time-entries/:entryId/description`. Unlike the timer
      operations, only callers with the employee role are checked against
      the assignee; an admin may edit any task. */
  function UpdateTimeEntryDescription(store: seq<Task>, id: TaskId, entryId: EntryId, description: string, actor: Actor): (r: Result<Task>)
    ensures !Stored(store, id) ==> r == Err(NotFound, TaskNotFound)
    ensures Stored(store, id) && actor.role == EmployeeRole && !IsAssignee(StoredTask(store, id), actor)
      ==> r == Err(Forbidden, NotAuthorized)
    ensures Stored(store, id) && (actor.role == AdminRole || IsAssignee(StoredTask(store, id), actor))
      ==> r == SetDescription(StoredTask(store, id), entryId, description)
  {
    match FindFirst(store, (t: Task) => t.id == id)
    case None => Err(NotFound, TaskNotFound)
    case Some(_) =>
      var t := StoredTask(store, id);
      if actor.role == EmployeeRole && !IsAssignee(t, actor) then Err(Forbidden, NotAuthorized)
      else SetDescription(t, entryId, description)
  }
}

=== FILE: token.dfy ===
/** The client-side token check: a structural test of a compact JSON Web
    Token (three period-separated parts, section 7.1 of RFC 7515) and of its
    expiration time claim (section 4.1.4 of RFC 7519).

    The decoding of the middle part, standard-base64 `atob` (which rejects
    the `-` and `_` of base64url) followed by `JSON.parse`, is a parameter
    `decode`, an oracle that may fail; the clock is the parameter `now`. */
module Token {
  import opened Results

  /** The JavaScript values a caller can pass. Numbers are integers here. */
  datatype JsValue = Undefined | Null | Bool(b: bool) | Number(n: int) | Str(s: string) | Object

  predicate Falsy(v: JsValue) {
    match v
    case Undefined => true
    case Null => true
    case Bool(b) => !b
    case Number(n) => n == 0
    case Str(s) => s == ""
    case Object => false
  }

  /** The decoded claims set; only the expiration time (seconds since the
      epoch) is inspected. */
  datatype Payload = Payload(exp: Option<int>)

  datatype Validation = Valid(payload: Payload) | Invalid(reason: string)

  const NoToken := "No token provided"
  const NotAString := "Token is not a string"
  const BadFormat := "Invalid token format"
  const BadPayload := "Invalid token payload"
  const TokenExpired := "Token expired"

  /** Line terminators, which `.` in a regular expression does not match. */
  predicate IsLineTerminator(c: char) {
    c == '\n' || c == '\r' || c == '\U{2028}' || c == '\U{2029}'
  }

  /** The characters `String.prototype.trim` removes: white space and line
      terminators. */
  predicate IsJsWhitespace(c: char) {
    var n := c as int;
    || (9 <= n <= 13) || n == 0x20 || n == 0xA0 || n == 0x1680
    || (0x2000 <= n <= 0x200A) || n == 0x2028 || n == 0x2029
    || n == 0x202F || n == 0x205F || n == 0x3000 || n == 0xFEFF
  }

  /** The replacement of `/^"(.*)"$/` by its group: one enclosing pair of
      double quotes is removed when both are present and nothing between
      them is a line terminator. */
  function StripQuotes(s: string): (r: string)
    ensures |r| == |s| || |r| == |s| - 2
    ensures |r| == |s| - 2 <==>
      |s| >= 2 && s[0] == '"' && s[|s| - 1] == '"' && forall i :: 1 <= i < |s| - 1 ==> !IsLineTerminator(s[i])
    ensures |r| == |s| - 2 ==> r == s[1..|s| - 1]
    ensures |r| == |s| ==> r == s
  {
    if |s| >= 2 && s[0] == '"' && s[|s| - 1] == '"' && forall i :: 1 <= i < |s| - 1 ==> !IsLineTerminator(s[i])
    then s[1..|s| - 1]
    else s
  }

  /** The index of the first character at or after `i` that is not white
      space, or `|s|`. */
  function SkipSpace(s: string, i: nat): (j: nat)
    requires i <= |s|
    ensures i <= j <= |s|
    ensures forall m :: i <= m < j ==> IsJsWhitespace(s[m])
    ensures j < |s| ==> !IsJsWhitespace(s[j])
    decreases |s| - i
  {
    if i < |s| && IsJsWhitespace(s[i]) then SkipSpace(s, i + 1) else i
  }

  /** The index just past the last character before `j`, and not before
      `lo`, that is not white space, or `lo`. */
  function SkipSpaceBack(s: string, lo: nat, j: nat): (e: nat)
    requires lo <= j <= |s|
    ensures lo <= e <= j
    ensures forall m :: e <= m < j ==> IsJsWhitespace(s[m])
    ensures e > lo ==> !IsJsWhitespace(s[e - 1])
    decreases j
  {
    if j > lo && IsJsWhitespace(s[j - 1]) then SkipSpaceBack(s, lo, j - 1) else j
  }

  /** `r` is the slice of `s` at offset `k` with only white space around it. */
  ghost predicate SliceAmidSpace(s: string, r: string, k: int) {
    && 0 <= k <= |s| - |r|
    && r == s[k..k + |r|]
    && (forall i :: 0 <= i < k ==> IsJsWhitespace(s[i]))
    && (forall i :: k + |r| <= i < |s| ==> IsJsWhitespace(s[i]))
  }

  /** `String.prototype.trim`: the longest slice of `s` neither starting nor
      ending with white space, everything around it being white space. */
  function Trim(s: string): (r: string)
    ensures exists k :: SliceAmidSpace(s, r, k)
    ensures |r| > 0 ==> !IsJsWhitespace(r[0]) && !IsJsWhitespace(r[|r| - 1])
  {
    var k := SkipSpace(s, 0);
    var e := SkipSpaceBack(s, k, |s|);
    assert SliceAmidSpace(s, s[k..e], k);
    s[k..e]
  }

  /** The token as checked: quotes stripped, then trimmed. */
  function Clean(s: string): string {
    Trim(StripQuotes(s))
  }

  /** The number of periods in `s`. */
  function Periods(s: string): nat
    decreases |s|
  {
    if |s| == 0 then 0 else (if s[0] == '.' then 1 else 0) + Periods(s[1..])
  }

  /** The parts joined with periods. */
  function Join(parts: seq<string>): string
    requires |parts| > 0
    decreases |parts|
  {
    if |parts| == 1 then parts[0] else parts[0] + "." + Join(parts[1..])
  }

  /** `String.prototype.split('.')`: the pieces between periods, one more
      than there are periods, none containing one. */
  function Split(s: string): (parts: seq<string>)
    ensures |parts| == Periods(s) + 1
    ensures forall i :: 0 <= i < |parts| ==> '.' !in parts[i]
    ensures Join(parts) == s
    decreases |s|
  {
    if |s| == 0 then [""]
    else
      var rest := Split(s[1..]);
      assert s == [s[0]] + s[1..];
      if s[0] == '.' then
        [""] + rest
      else
        JoinConsHead(s[0], rest);
        [[s[0]] + rest[0]] + rest[1..]
  }

  /** Prefixing a character to the first part prefixes it to the join. */
  lemma JoinConsHead(c: char, parts: seq<string>)
    requires |parts| > 0
    ensures Join([[c] + parts[0]] + parts[1..]) == [c] + Join(parts)
  {
    var ps := [[c] + parts[0]] + parts[1..];
    assert ps[1..] == parts[1..];
    if |parts| > 1 {
      var head, tail := parts[0], Join(parts[1..]);
      assert Join(ps) == ([c] + head) + "." + tail;
      Associative(c, head, tail);
    }
  }

  /** Regrouping a join of a prefixed first part. */
  lemma Associative(c: char, head: string, tail: string)
    ensures ([c] + head) + "." + tail == [c] + (head + "." + tail)
  {
  }

  /** A period-free prefix stays in the first part. */
  lemma {:induction false} SplitPrefix(a: string, s: string)
    requires '.' !in a
    ensures Split(a + s) == [a + Split(s)[0]] + Split(s)[1..]
    decreases |a|
  {
    var rest := Split(s);
    if |a| > 0 {
      var a' := a[1..];
      var inner := Split(a' + s);
      assert inner == [a' + rest[0]] + rest[1..] by {
        SplitPrefix(a', s);
      }
      assert Split(a + s) == [[a[0]] + inner[0]] + inner[1..] by {
        assert a + s == [a[0]] + (a' + s);
        SplitCons(a[0], a' + s);
      }
      assert [a[0]] + (a' + rest[0]) == a + rest[0];
    } else {
      assert a + s == s;
      assert rest == [rest[0]] + rest[1..];
      assert a + rest[0] == rest[0];
    }
  }

  /** A character other than a period joins the first part. */
  lemma SplitCons(c: char, s: string)
    requires c != '.'
    ensures Split([c] + s) == [[c] + Split(s)[0]] + Split(s)[1..]
  {
    assert ([c] + s)[1..] == s;
  }

  /** Splitting undoes joining period-free parts. */
  lemma {:induction false} SplitJoin(parts: seq<string>)
    requires |parts| > 0
    requires forall i :: 0 <= i < |parts| ==> '.' !in parts[i]
    ensures Split(Join(parts)) == parts
    decreases |parts|
  {
    if |parts| == 1 {
      SplitPrefix(parts[0], "");
      assert parts[0] + "" == parts[0];
    } else {
      SplitJoin(parts[1..]);
      var rest := "." + Join(parts[1..]);
      assert parts[0] + "." + Join(parts[1..]) == parts[0] + rest;
      SplitPrefix(parts[0], rest);
      assert rest[1..] == Join(parts[1..]);
      assert Split(rest) == [""] + parts[1..];
      assert parts[0] + "" == parts[0];
      assert parts == [parts[0]] + parts[1..];
    }
  }

  /** The `exp` check: a present, non-zero expiration time (in seconds)
      that the clock (in milliseconds) has reached. */
  predicate IsExpired(p: Payload, now: int) {
    p.exp.Some? && p.exp.value != 0 && now >= p.exp.value * 1000
  }

  /** The checks on the cleaned token: three parts, a decodable middle
      part, claims not expired. */
  function CheckCleaned(c: string, now: int, decode: string -> Option<Payload>): (r: Validation)
    ensures r == Invalid(BadFormat) <==> |Split(c)| != 3
    ensures |Split(c)| == 3 ==>
      var decoded := decode(Split(c)[1]);
      && (decoded.None? ==> r == Invalid(BadPayload))
      && (decoded.Some? ==> (r == Invalid(TokenExpired) <==> IsExpired(decoded.value, now)))
      && (decoded.Some? && !IsExpired(decoded.value, now) ==> r == Valid(decoded.value))
    ensures r.Valid? ==> |Split(c)| == 3 && decode(Split(c)[1]) == Some(r.payload)
  {
    var parts := Split(c);
    if |parts| != 3 then Invalid(BadFormat)
    else
      match decode(parts[1])
      case None => Invalid(BadPayload)
      case Some(p) =>
        if IsExpired(p, now) then Invalid(TokenExpired) else Valid(p)
  }

  /** Validates a stored token: a falsy value and a non-string are refused
      first; a string is checked once cleaned. */
  function ValidateToken(token: JsValue, now: int, decode: string -> Option<Payload>): (r: Validation)
    ensures Falsy(token) ==> r == Invalid(NoToken)
    ensures !Falsy(token) && !token.Str? ==> r == Invalid(NotAString)
    ensures token.Str? && token.s != "" ==> r == CheckCleaned(Clean(token.s), now, decode)
    ensures r.Valid? ==> token.Str? && token.s != ""
  {
    if Falsy(token) then Invalid(NoToken)
    else if !token.Str? then Invalid(NotAString)
    else CheckCleaned(Clean(token.s), now, decode)
  }

  /** A token of three period-free parts, not quoted and not padded, is
      accepted exactly when its middle part decodes to claims that are not
      expired. */
  lemma CompactTokenAccepted(header: string, body: string, signature: string, now: int,
                             decode: string -> Option<Payload>)
    requires '.' !in header && '.' !in body && '.' !in signature
    requires |header| > 0 && header[0] != '"' && !IsJsWhitespace(header[0])
    requires |signature| > 0 && !IsJsWhitespace(signature[|signature| - 1])
    ensures var r := ValidateToken(Str(header + "." + body + "." + signature), now, decode);
      match decode(body)
      case None => r == Invalid(BadPayload)
      case Some(p) => r == if IsExpired(p, now) then Invalid(TokenExpired) else Valid(p)
  {
    var t := header + "." + body + "." + signature;
    CompactTokenClean(header, body, signature);
    SplitThree(header, body, signature);
    ValidateCleaned(t, t, now, decode);
    ThreePartsChecked(t, body, now, decode);
  }

  /** A non-empty string token is judged by its cleaned form. */
  lemma ValidateCleaned(t: string, c: string, now: int, decode: string -> Option<Payload>)
    requires t != "" && Clean(t) == c
    ensures ValidateToken(Str(t), now, decode) == CheckCleaned(c, now, decode)
  {
  }

  /** A cleaned token of three parts is judged by its middle part alone. */
  lemma ThreePartsChecked(c: string, body: string, now: int, decode: string -> Option<Payload>)
    requires |Split(c)| == 3 && Split(c)[1] == body
    ensures var r := CheckCleaned(c, now, decode);
      match decode(body)
      case None => r == Invalid(BadPayload)
      case Some(p) => r == if IsExpired(p, now) then Invalid(TokenExpired) else Valid(p)
  {
  }

  /** Such a token is its own cleaned form. */
  lemma CompactTokenClean(header: string, body: string, signature: string)
    requires |header| > 0 && header[0] != '"' && !IsJsWhitespace(header[0])
    requires |signature| > 0 && !IsJsWhitespace(signature[|signature| - 1])
    ensures var t := header + "." + body + "." + signature;
      t != "" && Clean(t) == t
  {
    var t := header + "." + body + "." + signature;
    assert t[0] == header[0] && t[|t| - 1] == signature[|signature| - 1];
    CompactIsClean(t);
  }

  /** Three period-free parts joined with periods split back into them. */
  lemma SplitThree(header: string, body: string, signature: string)
    requires '.' !in header && '.' !in body && '.' !in signature
    ensures Split(header + "." + body + "." + signature) == [header, body, signature]
  {
    JoinThree(header, body, signature);
    SplitJoin([header, body, signature]);
  }

  lemma JoinThree(a: string, b: string, c: string)
    ensures Join([a, b, c]) == a + "." + b + "." + c
  {
    var parts := [a, b, c];
    assert parts[1..] == [b, c] && parts[1..][1..] == [c];
    assert Join([c]) == c;
    assert Join([b, c]) == b + "." + c;
    assert Join(parts) == a + "." + Join([b, c]);
  }

  /** Cleaning leaves alone a string that is not quoted and neither starts
      nor ends with white space. */
  lemma CompactIsClean(t: string)
    requires |t| > 0 && t[0] != '"' && !IsJsWhitespace(t[0]) && !IsJsWhitespace(t[|t| - 1])
    ensures Clean(t) == t
  {
    assert StripQuotes(t) == t;
    assert SkipSpace(t, 0) == 0;
    assert SkipSpaceBack(t, 0, |t|) == |t|;
    assert t[0..|t|] == t;
  }

  /** A token wrapped in one pair of double quotes is validated like the
      token itself. */
  lemma QuotedTokenSame(t: string, now: int, decode: string -> Option<Payload>)
    requires t != ""
    requires StripQuotes(t) == t
    requires forall i :: 0 <= i < |t| ==> !IsLineTerminator(t[i])
    ensures ValidateToken(Str("\"" + t + "\""), now, decode) == ValidateToken(Str(t), now, decode)
  {
    StripEnclosingQuotes(t);
    assert !Falsy(Str("\"" + t + "\""));
  }

  /** One enclosing pair of quotes around a single-line string is removed. */
  lemma StripEnclosingQuotes(t: string)
    requires forall i :: 0 <= i < |t| ==> !IsLineTerminator(t[i])
    ensures StripQuotes("\"" + t + "\"") == t
  {
    var q := "\"" + t + "\"";
    assert q[1..|q| - 1] == t;
    forall i | 1 <= i < |q| - 1 ensures !IsLineTerminator(q[i]) {
      assert q[i] == t[i - 1];
    }
  }

  /** Expiry is permanent: a token rejected as expired stays rejected at any
      later time, and one accepted was accepted at any earlier time. */
  lemma ExpiryMonotone(token: JsValue, now: int, later: int, decode: string -> Option<Payload>)
    requires now <= later
    ensures ValidateToken(token, now, decode) == Invalid(TokenExpired) ==>
      ValidateToken(token, later, decode) == Invalid(TokenExpired)
    ensures ValidateToken(token, later, decode).Valid? ==>
      ValidateToken(token, now, decode) == ValidateToken(token, later, decode)
  {
  }
}

=== FILE: tracking_chronology.dfy ===
/** Clock-order invariant of a task's time log, and what it implies for the
    worked minutes recorded at the end of a day. The controller takes every
    timestamp from the server clock; when that clock never runs backwards,
    breaks lie in order inside their entry. Even then the recorded worked
    minutes can be negative, because each break is rounded to whole minutes
    on its own: the lemmas below bound how negative. */
module TrackingChronology {
  import opened Results
  import opened Search
  import opened Durations
  import opened Tasks
  import opened TimeTracking
  import TrackingInvariants

  /** A chain that fits before `upto` fits before any later instant. */
  lemma {:induction false} BreaksWithinWiden(bs: seq<Break>, from: int, upto: int, later: int)
    requires BreaksWithin(bs, from, upto) && upto <= later
    ensures BreaksWithin(bs, from, later)
    decreases |bs|
  {
    if |bs| > 0 && bs[0].end.Some? {
      BreaksWithinWiden(bs[1..], bs[0].end.value, upto, later);
    }
  }

  /** A chain of closed breaks stays a chain when an open break starting at
      `now` is appended. */
  lemma {:induction false} BreaksWithinAppendOpen(bs: seq<Break>, from: int, upto: int, now: int)
    requires BreaksWithin(bs, from, upto) && upto <= now
    requires forall k :: 0 <= k < |bs| ==> !IsOpenBreak(bs[k])
    ensures BreaksWithin(bs + [Break(now, None, None)], from, now)
    decreases |bs|
  {
    var bs' := bs + [Break(now, None, None)];
    if |bs| > 0 {
      assert bs'[0] == bs[0] && bs'[1..] == bs[1..] + [Break(now, None, None)];
      BreaksWithinAppendOpen(bs[1..], bs[0].end.value, upto, now);
    }
  }

  /** With a closed head, closing the first open break happens in the tail. */
  lemma CloseOpenBreakSkipsClosedHead(bs: seq<Break>, now: int)
    requires |bs| > 0 && !IsOpenBreak(bs[0])
    ensures CloseOpenBreak(bs, now) == [bs[0]] + CloseOpenBreak(bs[1..], now)
  {
    var r, r' := CloseOpenBreak(bs, now), CloseOpenBreak(bs[1..], now);
    forall k | 0 <= k < |r'| ensures r[k + 1] == r'[k] {
      if IsFirst(bs[1..], IsOpenBreak, k) {
        assert IsFirst(bs, IsOpenBreak, k + 1);
      } else {
        assert !IsFirst(bs, IsOpenBreak, k + 1);
      }
    }
    assert !IsFirst(bs, IsOpenBreak, 0);
  }

  /** Closing the open break of a chain at a clock reading not earlier than
      the chain's bound yields a chain of closed breaks bounded by that
      reading. */
  lemma {:induction false} BreaksWithinClose(bs: seq<Break>, from: int, upto: int, now: int)
    requires BreaksWithin(bs, from, upto) && upto <= now
    ensures BreaksWithin(CloseOpenBreak(bs, now), from, now)
    ensures forall k :: 0 <= k < |bs| ==> !IsOpenBreak(CloseOpenBreak(bs, now)[k])
    decreases |bs|
  {
    var r := CloseOpenBreak(bs, now);
    if |bs| > 0 {
      if IsOpenBreak(bs[0]) {
        assert IsFirst(bs, IsOpenBreak, 0);
        assert r == [CloseBreak(bs[0], now)];
      } else {
        CloseOpenBreakSkipsClosedHead(bs, now);
        BreaksWithinClose(bs[1..], bs[0].end.value, upto, now);
        var tail := CloseOpenBreak(bs[1..], now);
        assert r[1..] == tail;
        forall k | 0 <= k < |bs| ensures !IsOpenBreak(r[k]) {
          if k > 0 {
            assert r[k] == tail[k - 1];
          }
        }
      }
    }
  }

  /** The break minutes of a chain of closed, consistent breaks inside
      `[from, upto]` are non-negative and exceed the chain's span by at most
      half a minute per break (each break's own rounding). */
  lemma {:induction false} BreakMinutesBounds(bs: seq<Break>, from: int, upto: int)
    requires BreaksWithin(bs, from, upto)
    requires forall k :: 0 <= k < |bs| ==> !IsOpenBreak(bs[k]) && BreakConsistent(bs[k])
    ensures 0 <= BreakMinutes(bs)
    ensures MsPerMinute * BreakMinutes(bs) <= upto - from + (MsPerMinute / 2) * |bs|
    decreases |bs|
  {
    if |bs| > 0 {
      var b := bs[0];
      assert BreakConsistent(b) && !IsOpenBreak(b);
      var d := RoundMinutes(b.end.value - b.start);
      assert b.duration == Some(d);
      BreakMinutesBounds(bs[1..], b.end.value, upto);
    }
  }

  /** A clock-ordered entry stays clock-ordered at any later reading. */
  lemma EntryChronologicalLater(e: TimeEntry, now: int, later: int)
    requires EntryChronological(e, now) && now <= later
    ensures EntryChronological(e, later)
  {
    if e.endTime.None? {
      BreaksWithinWiden(e.breaks, e.startTime, now, later);
    }
  }

  lemma ChronologicalLater(t: Task, now: int, later: int)
    requires Chronological(t, now) && now <= later
    ensures Chronological(t, later)
  {
    forall i | 0 <= i < |t.timeEntries| ensures EntryChronological(t.timeEntries[i], later) {
      EntryChronologicalLater(t.timeEntries[i], now, later);
    }
  }

  /** Replacing entry `i` by an entry clock-ordered at `now` keeps a task
      clock-ordered at `now`. */
  lemma ChronologicalWhenOnlyEntryChanged(t: Task, t': Task, i: nat, now: int)
    requires Chronological(t, now) && OnlyEntryChanged(t, t', i)
    requires EntryChronological(t'.timeEntries[i], now)
    ensures Chronological(t', now)
  {
    forall j | 0 <= j < |t'.timeEntries| ensures EntryChronological(t'.timeEntries[j], now) {
      if j != i {
        assert t'.timeEntries[j] == t.timeEntries[j];
      }
    }
  }

  /** Every timer transition performed at a clock reading not earlier than
      any recorded timestamp keeps the log clock-ordered at that reading. */
  lemma StartKeepsChronology(t: Task, now: int, later: int, entryId: EntryId)
    requires Chronological(t, now) && now <= later
    ensures Start(t, later, entryId).Ok? ==> Chronological(Start(t, later, entryId).value, later)
  {
    ChronologicalLater(t, now, later);
    var r := Start(t, later, entryId);
    if r.Ok? {
      var es := r.value.timeEntries;
      forall j | 0 <= j < |es| ensures EntryChronological(es[j], later) {
        if j < |t.timeEntries| {
          assert es[j] == t.timeEntries[j];
        }
      }
    }
  }

  lemma TakeBreakKeepsChronology(t: Task, now: int, later: int)
    requires Chronological(t, now) && now <= later
    ensures TakeBreak(t, later).Ok? ==> Chronological(TakeBreak(t, later).value, later)
  {
    ChronologicalLater(t, now, later);
    var r := TakeBreak(t, later);
    if r.Ok? {
      var i := FirstOpen(t);
      var e := t.timeEntries[i];
      assert EntryChronological(e, later);
      BreaksWithinAppendOpen(e.breaks, e.startTime, later, later);
      ChronologicalWhenOnlyEntryChanged(t, r.value, i, later);
    }
  }

  lemma ResumeKeepsChronology(t: Task, now: int, later: int)
    requires Chronological(t, now) && now <= later
    ensures Resume(t, later).Ok? ==> Chronological(Resume(t, later).value, later)
  {
    ChronologicalLater(t, now, later);
    var r := Resume(t, later);
    if r.Ok? {
      var i := FirstOpen(t);
      var e := t.timeEntries[i];
      assert EntryChronological(e, later);
      BreaksWithinClose(e.breaks, e.startTime, later, later);
      ChronologicalWhenOnlyEntryChanged(t, r.value, i, later);
    }
  }

  /** Ending the day reads the clock twice: `breakEnd` closes the open
      break, and `later`, not earlier, closes the entry. */
  lemma EndDayKeepsChronology(t: Task, now: int, breakEnd: int, later: int, description: Option<string>)
    requires Chronological(t, now) && now <= breakEnd <= later
    ensures EndDay(t, breakEnd, later, description).Ok? ==> Chronological(EndDay(t, breakEnd, later, description).value, later)
  {
    ChronologicalLater(t, now, breakEnd);
    ChronologicalLater(t, now, later);
    var r := EndDay(t, breakEnd, later, description);
    if r.Ok? {
      var i := FirstOpen(t);
      var e := t.timeEntries[i];
      assert EntryChronological(e, breakEnd);
      BreaksWithinClose(e.breaks, e.startTime, breakEnd, breakEnd);
      BreaksWithinWiden(CloseOpenBreak(e.breaks, breakEnd), e.startTime, breakEnd, later);
      ChronologicalWhenOnlyEntryChanged(t, r.value, i, later);
    }
  }

  /** Worked minutes of a session from `from` to `now` whose breaks form a
      chain of closed, consistent breaks: at most the rounded session
      length, and at least minus half the number of breaks. */
  lemma WorkedMinutesBounds(bs: seq<Break>, from: int, now: int)
    requires BreaksWithin(bs, from, now)
    requires forall k :: 0 <= k < |bs| ==> !IsOpenBreak(bs[k]) && BreakConsistent(bs[k])
    ensures WorkedMinutes(bs, now - from).Some?
    ensures WorkedMinutes(bs, now - from).value <= RoundMinutes(now - from)
    ensures -|bs| <= 2 * WorkedMinutes(bs, now - from).value
  {
    BreakMinutesBounds(bs, from, now);
    assert AllTimed(bs);
    var net := now - from - MsPerMinute * BreakMinutes(bs);
    RoundMinutesMonotone(net, now - from);
    NetLowerBound(RoundMinutes(net), net, |bs|);
  }

  /** Arithmetic step: a whole minute count within half a minute of a net
      length of at least minus half a minute per break. */
  lemma NetLowerBound(w: int, net: int, k: int)
    requires net < MsPerMinute * w + MsPerMinute / 2
    requires net >= -(MsPerMinute / 2) * k
    ensures -k <= 2 * w
  {
    assert (MsPerMinute / 2) * (2 * w + 1 + k) > 0;
  }

  /** Bounds on the worked minutes recorded when a day is ended on a
      well-formed, clock-ordered task, the open break closed at `breakEnd`
      and the entry at the later reading `now`: never more than the
      session's rounded length, and never below minus half the number of
      breaks.
      No clamp is applied, and the lower bound is reached: see
      `TrackingScenarios.NegativeWorkedMinutes`. */
  lemma EndDayWorkedMinutesBounds(t: Task, breakEnd: int, now: int, description: Option<string>)
    requires WellFormed(t) && Chronological(t, breakEnd) && breakEnd <= now && HasOpenEntry(t)
    ensures EndDay(t, breakEnd, now, description).Ok?
    ensures var e' := EndDay(t, breakEnd, now, description).value.timeEntries[FirstOpen(t)];
      e'.totalDuration.Some? && e'.totalDuration.value <= RoundMinutes(now - t.timeEntries[FirstOpen(t)].startTime)
    ensures var e' := EndDay(t, breakEnd, now, description).value.timeEntries[FirstOpen(t)];
      e'.totalDuration.Some? && -|e'.breaks| <= 2 * e'.totalDuration.value
  {
    var i := FirstOpen(t);
    var e := t.timeEntries[i];
    var r := EndDay(t, breakEnd, now, description);
    var e' := r.value.timeEntries[i];
    assert EntryWellFormed(e) && EntryChronological(e, breakEnd);
    BreaksWithinClose(e.breaks, e.startTime, breakEnd, breakEnd);
    BreaksWithinWiden(e'.breaks, e.startTime, breakEnd, now);
    TrackingInvariants.CloseOpenBreakKeepsBreaksConsistent(e, breakEnd);
    WorkedMinutesBounds(e'.breaks, e.startTime, now);
  }
}

=== FILE: tracking_invariants.dfy ===
/** The invariants of a task's time log (at most one open entry, at most
    one open break per entry, durations recorded when something is closed)
    and their preservation by every transition. */
module TrackingInvariants {
  import opened Results
  import opened Search
  import opened Durations
  import opened Tasks
  import opened TimeTracking

  /** Closing the first open break keeps every break consistent, and when
      there was at most one open break, leaves none. */
  lemma CloseOpenBreakKeepsBreaksConsistent(e: TimeEntry, now: int)
    requires forall k :: 0 <= k < |e.breaks| ==> BreakConsistent(e.breaks[k])
    ensures var bs := CloseOpenBreak(e.breaks, now);
      forall k :: 0 <= k < |bs| ==> BreakConsistent(bs[k])
    ensures AtMostOneOpenBreak(e) ==>
      var bs := CloseOpenBreak(e.breaks, now);
      forall k :: 0 <= k < |bs| ==> !IsOpenBreak(bs[k])
  {
    ClosedBreakConsistent(e.breaks, now);
    if AtMostOneOpenBreak(e) {
      OnlyOpenBreakClosed(e, now);
    }
  }

  /** The break closed now records its rounded length; the others are kept. */
  lemma ClosedBreakConsistent(bs: seq<Break>, now: int)
    requires forall k :: 0 <= k < |bs| ==> BreakConsistent(bs[k])
    ensures forall k :: 0 <= k < |bs| ==> BreakConsistent(CloseOpenBreak(bs, now)[k])
  {
    var r := CloseOpenBreak(bs, now);
    forall k | 0 <= k < |bs| ensures BreakConsistent(r[k]) {
      if IsFirst(bs, IsOpenBreak, k) {
        ClosingIsConsistent(bs[k], now);
      }
    }
  }

  /** A break closed now records its rounded length. */
  lemma ClosingIsConsistent(b: Break, now: int)
    ensures BreakConsistent(CloseBreak(b, now))
  {
  }

  /** With at most one open break, closing the first open one closes all. */
  lemma OnlyOpenBreakClosed(e: TimeEntry, now: int)
    requires AtMostOneOpenBreak(e)
    ensures forall k :: 0 <= k < |e.breaks| ==> !IsOpenBreak(CloseOpenBreak(e.breaks, now)[k])
  {
    var r := CloseOpenBreak(e.breaks, now);
    if HasOpenBreak(e) {
      var f := FirstOpenBreak(e);
      forall k | 0 <= k < |e.breaks| ensures !IsOpenBreak(r[k]) {
        if k != f {
          assert !IsFirst(e.breaks, IsOpenBreak, k);
          assert r[k] == e.breaks[k];
        }
      }
    }
  }

  /** Starting keeps at most one open entry per task and every entry well
      formed. */
  lemma StartPreservesWellFormed(t: Task, now: int, entryId: EntryId)
    requires WellFormed(t)
    ensures Start(t, now, entryId).Ok? ==> WellFormed(Start(t, now, entryId).value)
  {
    var r := Start(t, now, entryId);
    if r.Ok? {
      var es := r.value.timeEntries;
      var n := |t.timeEntries|;
      forall i | 0 <= i < |es| ensures EntryWellFormed(es[i]) {
        if i < n {
          assert es[i] == t.timeEntries[i];
        }
      }
      assert forall i :: 0 <= i < n ==> es[i] == t.timeEntries[i] && !IsOpenEntry(es[i]);
    }
  }

  /** Taking a break keeps the invariants: the new break is the only open
      one of its entry. */
  lemma TakeBreakPreservesWellFormed(t: Task, now: int)
    requires WellFormed(t)
    ensures TakeBreak(t, now).Ok? ==> WellFormed(TakeBreak(t, now).value)
  {
    var r := TakeBreak(t, now);
    if r.Ok? {
      var i := FirstOpen(t);
      var e := t.timeEntries[i];
      var e' := r.value.timeEntries[i];
      var bs := e'.breaks;
      forall k | 0 <= k < |bs| ensures BreakConsistent(bs[k]) {
        if k < |e.breaks| {
          assert bs[k] == e.breaks[k];
        }
      }
      assert forall k :: 0 <= k < |e.breaks| ==> bs[k] == e.breaks[k] && !IsOpenBreak(bs[k]);
      assert EntryWellFormed(e');
      PreservedWhenOnlyEntryChanged(t, r.value, i);
    }
  }

  /** Resuming keeps the invariants: the closed break carries its rounded
      length. */
  lemma ResumePreservesWellFormed(t: Task, now: int)
    requires WellFormed(t)
    ensures Resume(t, now).Ok? ==> WellFormed(Resume(t, now).value)
  {
    var r := Resume(t, now);
    if r.Ok? {
      var i := FirstOpen(t);
      var e := t.timeEntries[i];
      var e' := r.value.timeEntries[i];
      CloseOpenBreakKeepsBreaksConsistent(e, now);
      assert e'.breaks == CloseOpenBreak(e.breaks, now);
      assert AtMostOneOpenBreak(e');
      assert EntryWellFormed(e');
      PreservedWhenOnlyEntryChanged(t, r.value, i);
    }
  }

  /** Ending the day keeps the invariants: the closed entry has no open
      break and carries its worked minutes. */
  lemma EndDayPreservesWellFormed(t: Task, breakEnd: int, now: int, description: Option<string>)
    requires WellFormed(t)
    ensures EndDay(t, breakEnd, now, description).Ok? ==> WellFormed(EndDay(t, breakEnd, now, description).value)
  {
    var r := EndDay(t, breakEnd, now, description);
    if r.Ok? {
      var i := FirstOpen(t);
      var e := t.timeEntries[i];
      var e' := r.value.timeEntries[i];
      CloseOpenBreakKeepsBreaksConsistent(e, breakEnd);
      assert !HasOpenBreak(e');
      assert EntryWellFormed(e');
      PreservedWhenOnlyEntryChanged(t, r.value, i);
    }
  }

  /** Editing a description keeps the invariants and the open or closed
      state of every entry, hence the tracking state. */
  lemma SetDescriptionPreservesWellFormed(t: Task, entryId: EntryId, description: string)
    requires WellFormed(t)
    ensures SetDescription(t, entryId, description).Ok? ==>
      && WellFormed(SetDescription(t, entryId, description).value)
      && StateOf(SetDescription(t, entryId, description).value) == StateOf(t)
  {
    var r := SetDescription(t, entryId, description);
    if r.Ok? {
      var i := FindFirst(t.timeEntries, EntryIdIs(entryId)).value;
      DescriptionKeepsEntryWellFormed(t.timeEntries[i], description);
      PreservedWhenOnlyEntryChanged(t, r.value, i);
      SameOpenEntriesSameState(t, r.value, i);
    }
  }

  /** The description plays no part in an entry's invariants. */
  lemma DescriptionKeepsEntryWellFormed(e: TimeEntry, description: string)
    requires EntryWellFormed(e)
    ensures EntryWellFormed(e.(description := description))
  {
    var e' := e.(description := description);
    assert e'.breaks == e.breaks;
    assert HasOpenBreak(e') == HasOpenBreak(e);
  }

  /** Changing one entry of a well-formed task to a well-formed entry keeps
      the task well formed, provided no second open entry appears. */
  lemma PreservedWhenOnlyEntryChanged(t: Task, t': Task, i: nat)
    requires WellFormed(t) && OnlyEntryChanged(t, t', i)
    requires EntryWellFormed(t'.timeEntries[i])
    requires IsOpenEntry(t'.timeEntries[i]) ==> IsOpenEntry(t.timeEntries[i])
    ensures WellFormed(t')
  {
    var es := t'.timeEntries;
    forall j | 0 <= j < |es| ensures EntryWellFormed(es[j]) {
      if j != i {
        assert es[j] == t.timeEntries[j];
      }
    }
    forall j, l | 0 <= j < |es| && 0 <= l < |es| && IsOpenEntry(es[j]) && IsOpenEntry(es[l])
      ensures j == l
    {
      assert IsOpenEntry(t.timeEntries[j]) by {
        if j != i {
          assert es[j] == t.timeEntries[j];
        }
      }
      assert IsOpenEntry(t.timeEntries[l]) by {
        if l != i {
          assert es[l] == t.timeEntries[l];
        }
      }
    }
  }

  /** Two tasks whose entries differ only in entry `i`, with the same open
      or closed state and the same breaks there, are in the same tracking
      state. */
  lemma SameOpenEntriesSameState(t: Task, t': Task, i: nat)
    requires OnlyEntryChanged(t, t', i)
    requires t'.timeEntries[i].endTime == t.timeEntries[i].endTime
    requires t'.timeEntries[i].breaks == t.timeEntries[i].breaks
    ensures StateOf(t') == StateOf(t)
  {
    forall j | 0 <= j < |t.timeEntries|
      ensures IsOpenEntry(t'.timeEntries[j]) == IsOpenEntry(t.timeEntries[j])
      ensures t'.timeEntries[j].breaks == t.timeEntries[j].breaks
    {
      if j != i {
        assert t'.timeEntries[j] == t.timeEntries[j];
      }
    }
    if HasOpenEntry(t) {
      var f := FirstOpen(t);
      assert IsFirst(t'.timeEntries, IsOpenEntry, f);
      assert IsOpenEntry(t'.timeEntries[f]);
      FirstIsUnique(t'.timeEntries, IsOpenEntry, f, FirstOpen(t'));
    } else {
      assert !HasOpenEntry(t');
    }
  }
}

=== FILE: tracking_properties.dfy ===
/** Properties of the time-tracking state machine: which transition each
    state admits and where it leads, the invariants every transition keeps,
    the end-of-day duration bounds, and a whole work day end to end. */
module TrackingProperties {
  import opened Results
  import opened Search
  import opened Durations
  import opened Tasks
  import opened TimeTracking

  /** After a successful start the new entry is the first open one. */
  lemma StartTransition(t: Task, now: int, entryId: EntryId)
    ensures Start(t, now, entryId).Ok? <==> StateOf(t) == Idle
    ensures Start(t, now, entryId).Ok? ==> StateOf(Start(t, now, entryId).value) == Working
  {
    var r := Start(t, now, entryId);
    if r.Ok? {
      var t' := r.value;
      var n := |t.timeEntries|;
      assert IsOpenEntry(t'.timeEntries[n]);
      assert IsFirst(t'.timeEntries, IsOpenEntry, n);
      FirstIsUnique(t'.timeEntries, IsOpenEntry, n, FirstOpen(t'));
    }
  }

  /** A break can be taken exactly while working, and leads to a break. */
  lemma TakeBreakTransition(t: Task, now: int)
    ensures TakeBreak(t, now).Ok? <==> StateOf(t) == Working
    ensures TakeBreak(t, now).Ok? ==> StateOf(TakeBreak(t, now).value) == OnBreak
  {
    var r := TakeBreak(t, now);
    if r.Ok? {
      var t' := r.value;
      var i := FirstOpen(t);
      assert IsFirst(t'.timeEntries, IsOpenEntry, i);
      FirstIsUnique(t'.timeEntries, IsOpenEntry, i, FirstOpen(t'));
      var bs := t'.timeEntries[i].breaks;
      assert IsOpenBreak(bs[|bs| - 1]);
    }
  }

  /** Resuming is possible exactly on a break; with at most one open break
      per entry it leads back to working. */
  lemma ResumeTransition(t: Task, now: int)
    ensures Resume(t, now).Ok? <==> StateOf(t) == OnBreak
    ensures Resume(t, now).Ok? && WellFormed(t) ==> StateOf(Resume(t, now).value) == Working
  {
    var r := Resume(t, now);
    if r.Ok? && WellFormed(t) {
      var t' := r.value;
      var i := FirstOpen(t);
      assert IsFirst(t'.timeEntries, IsOpenEntry, i);
      FirstIsUnique(t'.timeEntries, IsOpenEntry, i, FirstOpen(t'));
      var e := t.timeEntries[i];
      var k := FirstOpenBreak(e);
      var bs := t'.timeEntries[i].breaks;
      forall l | 0 <= l < |bs| ensures !IsOpenBreak(bs[l]) {
        if l != k {
          assert bs[l] == e.breaks[l];
        }
      }
    }
  }

  /** A day can be ended from working or from a break; with at most one open
      entry and break it leads to idle. */
  lemma EndDayTransition(t: Task, breakEnd: int, now: int, description: Option<string>)
    ensures EndDay(t, breakEnd, now, description).Ok? <==> StateOf(t) != Idle
    ensures EndDay(t, breakEnd, now, description).Ok? && WellFormed(t) ==> StateOf(EndDay(t, breakEnd, now, description).value) == Idle
  {
    var r := EndDay(t, breakEnd, now, description);
    if r.Ok? && WellFormed(t) {
      var t' := r.value;
      var i := FirstOpen(t);
      forall j | 0 <= j < |t'.timeEntries| ensures !IsOpenEntry(t'.timeEntries[j]) {
        if j != i {
          assert t'.timeEntries[j] == t.timeEntries[j];
        }
      }
    }
  }
}

=== FILE: tracking_scenarios.dfy ===
/** Whole request sequences against one task: the invariants hold after any
    sequence of timer requests made with a clock that never runs backwards,
    a full work day produces the expected entry, and the worked minutes of
    an entry can come out negative. */
module TrackingScenarios {
  import opened Results
  import opened Search
  import opened Durations
  import opened Tasks
  import opened TimeTracking
  import TrackingProperties
  import TrackingInvariants
  import TrackingChronology

  /** A request against one task, after the task lookup and the assignee
      check have passed. */
  datatype Request =
    | StartRequest(at: int, entryId: EntryId)
    | BreakRequest(at: int)
    | ResumeRequest(at: int)
    | EndDayRequest(breakAt: int, at: int, description: Option<string>)
    | DescribeRequest(entryId: EntryId, text: string)

  function Perform(t: Task, q: Request): Result<Task> {
    match q
    case StartRequest(at, id) => Start(t, at, id)
    case BreakRequest(at) => TakeBreak(t, at)
    case ResumeRequest(at) => Resume(t, at)
    case EndDayRequest(b, at, d) => EndDay(t, b, at, d)
    case DescribeRequest(id, text) => SetDescription(t, id, text)
  }

  /** The clock reading after request `q`, starting from `now`. */
  function ClockAfter(q: Request, now: int): int {
    if q.DescribeRequest? then now else q.at
  }

  /** The clock readings of `q` do not precede `now` nor each other: an
      end of day reads the clock for its break before it reads it for its
      entry. */
  predicate ReadsInOrder(q: Request, now: int) {
    now <= ClockAfter(q, now) && (q.EndDayRequest? ==> now <= q.breakAt <= q.at)
  }

  /** The requests read the clock in non-decreasing order, from `now` on. */
  ghost predicate ClockOrdered(qs: seq<Request>, now: int)
    decreases |qs|
  {
    |qs| == 0 || (ReadsInOrder(qs[0], now) && ClockOrdered(qs[1..], ClockAfter(qs[0], now)))
  }

  function FinalClock(qs: seq<Request>, now: int): int
    decreases |qs|
  {
    if |qs| == 0 then now else FinalClock(qs[1..], ClockAfter(qs[0], now))
  }

  /** The task after the requests in order; a refused request saves nothing. */
  function Replay(t: Task, qs: seq<Request>): Task
    decreases |qs|
  {
    if |qs| == 0 then t
    else
      match Perform(t, qs[0])
      case Ok(t') => Replay(t', qs[1..])
      case Err(_, _) => Replay(t, qs[1..])
  }

  /** One request keeps both invariants. */
  lemma PerformKeepsInvariants(t: Task, q: Request, now: int)
    requires WellFormed(t) && Chronological(t, now) && ReadsInOrder(q, now)
    ensures Perform(t, q).Ok? ==>
      WellFormed(Perform(t, q).value) && Chronological(Perform(t, q).value, ClockAfter(q, now))
  {
    match q
    case StartRequest(at, id) =>
      TrackingInvariants.StartPreservesWellFormed(t, at, id);
      TrackingChronology.StartKeepsChronology(t, now, at, id);
    case BreakRequest(at) =>
      TrackingInvariants.TakeBreakPreservesWellFormed(t, at);
      TrackingChronology.TakeBreakKeepsChronology(t, now, at);
    case ResumeRequest(at) =>
      TrackingInvariants.ResumePreservesWellFormed(t, at);
      TrackingChronology.ResumeKeepsChronology(t, now, at);
    case EndDayRequest(b, at, d) =>
      TrackingInvariants.EndDayPreservesWellFormed(t, b, at, d);
      TrackingChronology.EndDayKeepsChronology(t, now, b, at, d);
    case DescribeRequest(id, text) =>
      TrackingInvariants.SetDescriptionPreservesWellFormed(t, id, text);
      var r := SetDescription(t, id, text);
      if r.Ok? {
        var i := FindFirst(t.timeEntries, EntryIdIs(id)).value;
        TrackingChronology.ChronologicalWhenOnlyEntryChanged(t, r.value, i, now);
      }
  }

  /** Any clock-ordered sequence of requests keeps a task with at most one
      open entry, at most one open break per entry, durations recorded on
      every closed break and entry, and timestamps in clock order. */
  lemma {:induction false} ReplayKeepsInvariants(t: Task, qs: seq<Request>, now: int)
    requires WellFormed(t) && Chronological(t, now) && ClockOrdered(qs, now)
    ensures WellFormed(Replay(t, qs)) && Chronological(Replay(t, qs), FinalClock(qs, now))
    decreases |qs|
  {
    if |qs| > 0 {
      var later := ClockAfter(qs[0], now);
      PerformKeepsInvariants(t, qs[0], now);
      match Perform(t, qs[0])
      case Ok(t') =>
        ReplayKeepsInvariants(t', qs[1..], later);
      case Err(_, _) =>
        TrackingChronology.ChronologicalLater(t, now, later);
        ReplayKeepsInvariants(t, qs[1..], later);
    }
  }

  /** A whole day on an idle task: start, break, resume, end. Exactly one
      entry is appended; it is closed, holds the one break with its rounded
      length, and records the elapsed time less that break as worked
      minutes. The task is idle again. The break is already closed when the day ends,
      so the end of day's first clock reading `tb` plays no part. */
  lemma WorkDayRoundTrip(t: Task, entryId: EntryId, t0: int, t1: int, t2: int, tb: int, t3: int, description: Option<string>)
    returns (s1: Task, s2: Task, s3: Task, s4: Task)
    requires !HasOpenEntry(t)
    ensures Start(t, t0, entryId) == Ok(s1) && TakeBreak(s1, t1) == Ok(s2)
    ensures Resume(s2, t2) == Ok(s3) && EndDay(s3, tb, t3, description) == Ok(s4)
    ensures |s4.timeEntries| == |t.timeEntries| + 1 && s4.timeEntries[..|t.timeEntries|] == t.timeEntries
    ensures var e := s4.timeEntries[|t.timeEntries|];
      && e.id == entryId && e.startTime == t0 && e.endTime == Some(t3)
      && e.breaks == [Break(t1, Some(t2), Some(RoundMinutes(t2 - t1)))]
      && e.totalDuration == Some(RoundMinutes((t3 - t0) - MsPerMinute * RoundMinutes(t2 - t1)))
    ensures StateOf(s4) == Idle
  {
    var n := |t.timeEntries|;
    s1, s2, s3 := WorkAndPause(t, entryId, t0, t1, t2);
    s4 := EndDay(s3, tb, t3, description).value;
    EndDaySingleClosedBreak(s3, tb, t3, description, n, t0, RoundMinutes(t2 - t1));
    PrefixKept(t, s3, s4, n);
    ClosedAfterPrefix(t, s4, n);
  }

  /** The first half of a work day: start, break and resume leave one new
      open entry holding one closed break. */
  lemma WorkAndPause(t: Task, entryId: EntryId, t0: int, t1: int, t2: int) returns (s1: Task, s2: Task, s3: Task)
    requires !HasOpenEntry(t)
    ensures Start(t, t0, entryId) == Ok(s1) && TakeBreak(s1, t1) == Ok(s2) && Resume(s2, t2) == Ok(s3)
    ensures |s3.timeEntries| == |t.timeEntries| + 1 && s3.timeEntries[..|t.timeEntries|] == t.timeEntries
    ensures HasOpenEntry(s3) && FirstOpen(s3) == |t.timeEntries|
    ensures var e := s3.timeEntries[|t.timeEntries|];
      && e.id == entryId && e.startTime == t0
      && e.breaks == [Break(t1, Some(t2), Some(RoundMinutes(t2 - t1)))]
  {
    var n := |t.timeEntries|;
    s1 := Start(t, t0, entryId).value;
    TrackingProperties.StartTransition(t, t0, entryId);
    assert IsFirst(s1.timeEntries, IsOpenEntry, n);
    FirstIsUnique(s1.timeEntries, IsOpenEntry, n, FirstOpen(s1));

    s2 := TakeBreak(s1, t1).value;
    assert s1.timeEntries[n].breaks == [];
    FirstOpenKept(s1, s2, n);
    assert s2.timeEntries[n].breaks == [Break(t1, None, None)];
    PrefixKept(t, s1, s2, n);

    s3 := Resume(s2, t2).value;
    ResumeSingleBreak(s2, t2, n);
    FirstOpenKept(s2, s3, n);
    PrefixKept(t, s2, s3, n);
  }

  /** Changing only the first open entry, and leaving it open, keeps it the
      first open entry. */
  lemma FirstOpenKept(t: Task, t': Task, i: nat)
    requires HasOpenEntry(t) && FirstOpen(t) == i
    requires OnlyEntryChanged(t, t', i) && IsOpenEntry(t'.timeEntries[i])
    ensures HasOpenEntry(t') && FirstOpen(t') == i
  {
    forall j | 0 <= j < i ensures !IsOpenEntry(t'.timeEntries[j]) {
      assert t'.timeEntries[j] == t.timeEntries[j];
    }
    assert IsFirst(t'.timeEntries, IsOpenEntry, i);
    FirstIsUnique(t'.timeEntries, IsOpenEntry, i, FirstOpen(t'));
  }

  /** Resuming an entry whose only break is open closes that break. */
  lemma ResumeSingleBreak(t: Task, now: int, i: nat)
    requires HasOpenEntry(t) && FirstOpen(t) == i
    requires |t.timeEntries[i].breaks| == 1 && IsOpenBreak(t.timeEntries[i].breaks[0])
    ensures Resume(t, now).Ok?
    ensures OnlyEntryChanged(t, Resume(t, now).value, i)
    ensures var b := t.timeEntries[i].breaks[0];
      Resume(t, now).value.timeEntries[i] == t.timeEntries[i].(breaks := [CloseBreak(b, now)])
  {
    var bs := t.timeEntries[i].breaks;
    assert IsFirst(bs, IsOpenBreak, 0);
    assert CloseOpenBreak(bs, now) == [CloseBreak(bs[0], now)];
  }

  /** Ending the day on an entry whose only break is closed. */
  lemma EndDaySingleClosedBreak(t: Task, breakEnd: int, now: int, description: Option<string>, i: nat, start: int, minutes: int)
    requires HasOpenEntry(t) && FirstOpen(t) == i && t.timeEntries[i].startTime == start
    requires |t.timeEntries[i].breaks| == 1
    requires t.timeEntries[i].breaks[0].end.Some? && t.timeEntries[i].breaks[0].duration == Some(minutes)
    ensures EndDay(t, breakEnd, now, description).Ok?
    ensures OnlyEntryChanged(t, EndDay(t, breakEnd, now, description).value, i)
    ensures var e' := EndDay(t, breakEnd, now, description).value.timeEntries[i];
      && e'.id == t.timeEntries[i].id && e'.startTime == start && e'.endTime == Some(now)
      && e'.breaks == t.timeEntries[i].breaks
      && e'.totalDuration == Some(RoundMinutes((now - start) - MsPerMinute * minutes))
  {
    var b := t.timeEntries[i].breaks[0];
    assert t.timeEntries[i].breaks == [b];
    assert !IsFirst([b], IsOpenBreak, 0);
    assert CloseOpenBreak([b], breakEnd) == [b];
    assert BreakMinutes([b]) == minutes;
  }

  /** Changing only the entry after the original ones keeps the original
      ones. */
  lemma PrefixKept(t: Task, a: Task, b: Task, n: nat)
    requires n == |t.timeEntries| && |a.timeEntries| == n + 1 && a.timeEntries[..n] == t.timeEntries
    requires OnlyEntryChanged(a, b, n)
    ensures |b.timeEntries| == n + 1 && b.timeEntries[..n] == t.timeEntries
  {
    forall j | 0 <= j < n ensures b.timeEntries[j] == t.timeEntries[j] {
      assert a.timeEntries[j] == a.timeEntries[..n][j];
    }
  }

  /** Closing the one entry after closed original entries leaves no open
      entry. */
  lemma ClosedAfterPrefix(t: Task, b: Task, n: nat)
    requires !HasOpenEntry(t) && n == |t.timeEntries|
    requires |b.timeEntries| == n + 1 && b.timeEntries[..n] == t.timeEntries
    requires !IsOpenEntry(b.timeEntries[n])
    ensures !HasOpenEntry(b)
  {
    forall j | 0 <= j < n ensures !IsOpenEntry(b.timeEntries[j]) {
      assert b.timeEntries[j] == b.timeEntries[..n][j];
    }
  }

  /** Worked minutes can be negative although the clock never runs
      backwards: two back-to-back half-minute breaks each round up to one
      minute, so a one-minute session records -1 worked minutes. This
      reaches the lower bound of `TrackingChronology.EndDayWorkedMinutesBounds`. */
  lemma NegativeWorkedMinutes(t: Task, entryId: EntryId) returns (s1: Task, s2: Task, s3: Task, s4: Task, s5: Task, s6: Task)
    requires t.timeEntries == []
    ensures Start(t, 0, entryId) == Ok(s1) && TakeBreak(s1, 0) == Ok(s2) && Resume(s2, 30000) == Ok(s3)
    ensures TakeBreak(s3, 30000) == Ok(s4) && Resume(s4, 60000) == Ok(s5) && EndDay(s5, 60000, 60000, None) == Ok(s6)
    ensures |s6.timeEntries| == 1 && |s6.timeEntries[0].breaks| == 2
    ensures s6.timeEntries[0].totalDuration == Some(-1)
  {
    s1, s2, s3 := ExampleFirstBreak(t, entryId);
    s4, s5, s6 := ExampleSecondBreak(s3, entryId);
  }

  /** Start at 0, break at 0, resume at 30 s: one closed break of 1 minute. */
  lemma ExampleFirstBreak(t: Task, entryId: EntryId) returns (s1: Task, s2: Task, s3: Task)
    requires t.timeEntries == []
    ensures Start(t, 0, entryId) == Ok(s1) && TakeBreak(s1, 0) == Ok(s2) && Resume(s2, 30000) == Ok(s3)
    ensures s3 == t.(status := Active, timeEntries := [OpenedEntry(entryId, 0).(breaks := [CloseBreak(Break(0, None, None), 30000)])])
  {
    var e0 := OpenedEntry(entryId, 0);
    s1 := t.(status := Active, timeEntries := [e0]);
    assert Start(t, 0, entryId) == Ok(s1);
    var b1 := Break(0, None, None);
    SingleEntryTakeBreak(s1, e0, 0);
    assert e0.breaks + [b1] == [b1];
    s2 := s1.(timeEntries := [e0.(breaks := [b1])]);
    SingleEntryResume(s2, e0.(breaks := [b1]), 30000);
    assert [b1][..0] + [CloseBreak(b1, 30000)] == [CloseBreak(b1, 30000)];
    s3 := s1.(timeEntries := [e0.(breaks := [CloseBreak(b1, 30000)])]);
  }

  /** Break at 30 s, resume at 60 s, end at 60 s: a second 1-minute break,
      and -1 worked minutes. */
  lemma ExampleSecondBreak(s3: Task, entryId: EntryId) returns (s4: Task, s5: Task, s6: Task)
    requires s3.timeEntries == [OpenedEntry(entryId, 0).(breaks := [CloseBreak(Break(0, None, None), 30000)])]
    ensures TakeBreak(s3, 30000) == Ok(s4) && Resume(s4, 60000) == Ok(s5) && EndDay(s5, 60000, 60000, None) == Ok(s6)
    ensures |s6.timeEntries| == 1 && |s6.timeEntries[0].breaks| == 2
    ensures s6.timeEntries[0].totalDuration == Some(-1)
  {
    var e0 := OpenedEntry(entryId, 0);
    var c1 := CloseBreak(Break(0, None, None), 30000);
    var b2 := Break(30000, None, None);
    SingleEntryTakeBreak(s3, e0.(breaks := [c1]), 30000);
    assert [c1] + [b2] == [c1, b2];
    s4 := s3.(timeEntries := [e0.(breaks := [c1, b2])]);
    var c2 := CloseBreak(b2, 60000);
    SingleEntryResume(s4, e0.(breaks := [c1, b2]), 60000);
    assert [c1, b2][..1] + [c2] == [c1, c2];
    s5 := s3.(timeEntries := [e0.(breaks := [c1, c2])]);
    SingleEntryEndDay(s5, e0.(breaks := [c1, c2]), 60000);
    s6 := EndDay(s5, 60000, 60000, None).value;
    assert c1.duration == Some(1) && c2.duration == Some(1);
    assert [c1, c2][1..] == [c2] && [c2][1..] == [];
    assert c1.duration.GetOr(0) == 1 && c2.duration.GetOr(0) == 1;
    assert BreakMinutes([c2]) == 1 + BreakMinutes([]) == 1;
    assert BreakMinutes([c1, c2]) == 1 + BreakMinutes([c2]) == 2;
    assert 60000 - MsPerMinute * 2 == MsPerMinute * -1;
    RoundWholeMinutes(-1);
  }

  /** On a task whose only entry is open with closed breaks, a break
      appends one open break to it. */
  lemma SingleEntryTakeBreak(s: Task, e: TimeEntry, now: int)
    requires s.timeEntries == [e] && IsOpenEntry(e)
    requires forall k :: 0 <= k < |e.breaks| ==> !IsOpenBreak(e.breaks[k])
    ensures TakeBreak(s, now) == Ok(s.(timeEntries := [e.(breaks := e.breaks + [Break(now, None, None)])]))
  {
    assert IsFirst(s.timeEntries, IsOpenEntry, 0);
    FirstIsUnique(s.timeEntries, IsOpenEntry, 0, FirstOpen(s));
    assert !HasOpenBreak(e);
    var r := TakeBreak(s, now).value;
    assert r.timeEntries[0] == e.(breaks := e.breaks + [Break(now, None, None)]);
    assert r.timeEntries == [r.timeEntries[0]];
    assert r == r.(timeEntries := s.timeEntries).(timeEntries := r.timeEntries);
  }

  /** On a task whose only entry is open and ends with its only open break,
      resuming closes that break. */
  lemma SingleEntryResume(s: Task, e: TimeEntry, now: int)
    requires s.timeEntries == [e] && IsOpenEntry(e) && |e.breaks| > 0
    requires IsOpenBreak(e.breaks[|e.breaks| - 1])
    requires forall k :: 0 <= k < |e.breaks| - 1 ==> !IsOpenBreak(e.breaks[k])
    ensures
      var n := |e.breaks| - 1;
      Resume(s, now) == Ok(s.(timeEntries := [e.(breaks := e.breaks[..n] + [CloseBreak(e.breaks[n], now)])]))
  {
    var n := |e.breaks| - 1;
    assert IsFirst(s.timeEntries, IsOpenEntry, 0);
    FirstIsUnique(s.timeEntries, IsOpenEntry, 0, FirstOpen(s));
    assert IsFirst(e.breaks, IsOpenBreak, n);
    FirstIsUnique(e.breaks, IsOpenBreak, n, FirstOpenBreak(e));
    var bs := CloseOpenBreak(e.breaks, now);
    assert bs == e.breaks[..n] + [CloseBreak(e.breaks[n], now)];
    var r := Resume(s, now).value;
    assert r.timeEntries[0] == e.(breaks := bs);
    assert r.timeEntries == [r.timeEntries[0]];
    assert r == r.(timeEntries := s.timeEntries).(timeEntries := r.timeEntries);
  }

  /** On a task whose only entry is open with closed breaks, ending the day
      without a description closes it with the default description. */
  lemma SingleEntryEndDay(s: Task, e: TimeEntry, now: int)
    requires s.timeEntries == [e] && IsOpenEntry(e)
    requires forall k :: 0 <= k < |e.breaks| ==> !IsOpenBreak(e.breaks[k])
    ensures EndDay(s, now, now, None).Ok?
    ensures |EndDay(s, now, now, None).value.timeEntries| == 1
    ensures EndDay(s, now, now, None).value.timeEntries[0].breaks == e.breaks
    ensures EndDay(s, now, now, None).value.timeEntries[0].totalDuration == WorkedMinutes(e.breaks, now - e.startTime)
  {
    assert IsFirst(s.timeEntries, IsOpenEntry, 0);
    FirstIsUnique(s.timeEntries, IsOpenEntry, 0, FirstOpen(s));
    var bs := CloseOpenBreak(e.breaks, now);
    forall k | 0 <= k < |bs| ensures bs[k] == e.breaks[k] {
      assert !IsFirst(e.breaks, IsOpenBreak, k);
    }
    assert bs == e.breaks;
  }
}

=== FILE: weekly_report.dfy ===
/** The weekly report: for one employee and an inclusive window, every
    closed time entry of the employee's tasks that started inside the window
    becomes a report item; items are grouped by calendar day, each day and
    the whole window totalled, and the days listed in ascending order.

    Time is aggregated in whole minutes (the controller divides by 60 into
    floating-point hours and rounds the summary to two decimals). The
    calendar day of a timestamp in the server's local time zone is a
    parameter `dayOf`, an ordinal that increases with the date. */
module WeeklyReport {
  import opened Results
  import opened Tasks

  /** An inclusive time window, in milliseconds. */
  datatype Window = Window(start: int, end: int)

  predicate InWindow(t: int, w: Window) {
    w.start <= t <= w.end
  }

  /** One counted time entry, as listed under its day. */
  datatype ReportItem = ReportItem(
    taskId: TaskId,
    taskTitle: string,
    taskCategory: string,
    entryId: EntryId,
    description: string,
    startTime: int,
    endTime: int,
    minutes: int,
    breakMinutes: int,
    day: int)

  /** One day of the report with its items (in scan order) and totals. */
  datatype DayReport = DayReport(day: int, items: seq<ReportItem>, totalMinutes: int, breakMinutes: int)

  datatype Summary = Summary(totalMinutes: int, breakMinutes: int, netMinutes: int, daysWorked: nat)

  datatype Report = Report(window: Window, days: seq<DayReport>, summary: Summary)

  /** An entry is counted when it started inside the window and is closed. */
  predicate Counted(e: TimeEntry, w: Window) {
    InWindow(e.startTime, w) && e.endTime.Some?
  }

  /** The report item of a counted entry: its worked minutes (0 when unset)
      and the sum of its break minutes (a break without duration counts 0). */
  function ItemOf(t: Task, e: TimeEntry, dayOf: int -> int): ReportItem
    requires e.endTime.Some?
  {
    ReportItem(t.id, t.title, t.category, e.id, e.description, e.startTime, e.endTime.value,
               e.totalDuration.GetOr(0), BreakMinutes(e.breaks), dayOf(e.startTime))
  }

  /** The items of the counted entries of `es`, in order. */
  function EntryItems(t: Task, es: seq<TimeEntry>, w: Window, dayOf: int -> int): seq<ReportItem>
    decreases |es|
  {
    if |es| == 0 then []
    else
      var last := es[|es| - 1];
      EntryItems(t, es[..|es| - 1], w, dayOf) + (if Counted(last, w) then [ItemOf(t, last, dayOf)] else [])
  }

  /** The items of every task in order, then every entry in order. */
  function TaskItems(ts: seq<Task>, w: Window, dayOf: int -> int): seq<ReportItem>
    decreases |ts|
  {
    if |ts| == 0 then []
    else
      var last := ts[|ts| - 1];
      TaskItems(ts[..|ts| - 1], w, dayOf) + EntryItems(last, last.timeEntries, w, dayOf)
  }

  /** The document-store query: tasks assigned to the employee where some
      entry started no earlier than the window's start and some entry, not
      necessarily the same one, started no later than its end. A range on
      a field of an array element is met bound by bound, not by a single
      element. */
  predicate Selected(t: Task, employee: EmployeeId, w: Window) {
    && t.assignedTo == employee
    && (exists i :: 0 <= i < |t.timeEntries| && w.start <= t.timeEntries[i].startTime)
    && (exists j :: 0 <= j < |t.timeEntries| && t.timeEntries[j].startTime <= w.end)
  }

  function SelectTasks(store: seq<Task>, employee: EmployeeId, w: Window): (r: seq<Task>)
    ensures forall t :: t in r ==> t in store && Selected(t, employee, w)
    ensures forall t :: t in store && Selected(t, employee, w) ==> t in r
    decreases |store|
  {
    if |store| == 0 then []
    else
      var rest := SelectTasks(store[..|store| - 1], employee, w);
      var last := store[|store| - 1];
      assert store == store[..|store| - 1] + [last];
      rest + (if Selected(last, employee, w) then [last] else [])
  }

  function SumMinutes(items: seq<ReportItem>): int
    decreases |items|
  {
    if |items| == 0 then 0 else SumMinutes(items[..|items| - 1]) + items[|items| - 1].minutes
  }

  function SumBreaks(items: seq<ReportItem>): int
    decreases |items|
  {
    if |items| == 0 then 0 else SumBreaks(items[..|items| - 1]) + items[|items| - 1].breakMinutes
  }

  /** The items of `items` that fall on `day`, in order. */
  function ItemsOn(items: seq<ReportItem>, day: int): seq<ReportItem>
    decreases |items|
  {
    if |items| == 0 then []
    else
      var last := items[|items| - 1];
      ItemsOn(items[..|items| - 1], day) + (if last.day == day then [last] else [])
  }

  /** Days strictly ascending (hence distinct). */
  ghost predicate Ascending(days: seq<DayReport>) {
    forall i, j :: 0 <= i < j < |days| ==> days[i].day < days[j].day
  }

  /** Each day has items, and its totals are the sums over them. */
  ghost predicate Totalled(days: seq<DayReport>) {
    forall i :: 0 <= i < |days| ==>
      && |days[i].items| > 0
      && days[i].totalMinutes == SumMinutes(days[i].items)
      && days[i].breakMinutes == SumBreaks(days[i].items)
  }

  ghost predicate HasDay(days: seq<DayReport>, day: int) {
    exists i :: 0 <= i < |days| && days[i].day == day
  }

  /** The items listed under `day`, or none when the day is absent. */
  function ItemsOfDay(days: seq<DayReport>, day: int): seq<ReportItem>
    decreases |days|
  {
    if |days| == 0 then []
    else if days[0].day == day then days[0].items
    else ItemsOfDay(days[1..], day)
  }

  function DaysMinutes(days: seq<DayReport>): int
    decreases |days|
  {
    if |days| == 0 then 0 else days[0].totalMinutes + DaysMinutes(days[1..])
  }

  function DaysBreaks(days: seq<DayReport>): int
    decreases |days|
  {
    if |days| == 0 then 0 else days[0].breakMinutes + DaysBreaks(days[1..])
  }

  /** Adds one item to its day: appended to the day's items and totals when
      the day is present, otherwise a new day at its place in the order. */
  function AddItem(days: seq<DayReport>, it: ReportItem): seq<DayReport>
    decreases |days|
  {
    if |days| == 0 then [DayReport(it.day, [it], it.minutes, it.breakMinutes)]
    else if days[0].day == it.day then
      var d0 := days[0];
      [DayReport(d0.day, d0.items + [it], d0.totalMinutes + it.minutes, d0.breakMinutes + it.breakMinutes)] + days[1..]
    else if it.day < days[0].day then [DayReport(it.day, [it], it.minutes, it.breakMinutes)] + days
    else [days[0]] + AddItem(days[1..], it)
  }

  /** A day is listed iff some entry of the list has it. */
  lemma HasDayCons(days: seq<DayReport>, d: int)
    requires |days| > 0
    ensures HasDay(days, d) <==> days[0].day == d || HasDay(days[1..], d)
  {
    if HasDay(days, d) && days[0].day != d {
      var k :| 0 <= k < |days| && days[k].day == d;
      assert days[1..][k - 1].day == d;
    }
    if HasDay(days[1..], d) {
      var k :| 0 <= k < |days[1..]| && days[1..][k].day == d;
      assert days[k + 1].day == d;
    }
  }

  /** Adding an item keeps the days ascending and adds exactly its day. */
  lemma {:induction false} AddItemDays(days: seq<DayReport>, it: ReportItem)
    requires Ascending(days)
    ensures Ascending(AddItem(days, it))
    ensures forall d :: HasDay(AddItem(days, it), d) <==> HasDay(days, d) || d == it.day
    decreases |days|
  {
    var r := AddItem(days, it);
    if |days| == 0 {
      assert r[0].day == it.day;
    } else {
      forall d ensures HasDay(days, d) <==> days[0].day == d || HasDay(days[1..], d) {
        HasDayCons(days, d);
      }
      forall d ensures HasDay(r, d) <==> r[0].day == d || HasDay(r[1..], d) {
        HasDayCons(r, d);
      }
      if days[0].day == it.day {
        assert r[1..] == days[1..];
      } else if it.day < days[0].day {
        assert r[1..] == days;
      } else {
        var rest := AddItem(days[1..], it);
        AddItemDays(days[1..], it);
        assert r[1..] == rest;
        forall i | 0 <= i < |rest| ensures days[0].day < rest[i].day {
          assert HasDay(rest, rest[i].day);
          if rest[i].day != it.day {
            var k :| 0 <= k < |days[1..]| && days[1..][k].day == rest[i].day;
            assert days[k + 1].day == rest[i].day;
          }
        }
      }
    }
  }

  /** Adding an item keeps every day totalled, and adds its minutes to the
      sums over all days. */
  lemma {:induction false} AddItemTotals(days: seq<DayReport>, it: ReportItem)
    requires Totalled(days)
    ensures Totalled(AddItem(days, it))
    ensures DaysMinutes(AddItem(days, it)) == DaysMinutes(days) + it.minutes
    ensures DaysBreaks(AddItem(days, it)) == DaysBreaks(days) + it.breakMinutes
    decreases |days|
  {
    var r := AddItem(days, it);
    var single := DayReport(it.day, [it], it.minutes, it.breakMinutes);
    assert SumMinutes([it]) == it.minutes && SumBreaks([it]) == it.breakMinutes by {
      assert [it][..0] == [];
    }
    if |days| == 0 {
      TotalledCons(single, []);
    } else if days[0].day == it.day {
      var d0 := days[0];
      var items := d0.items + [it];
      assert items[..|items| - 1] == d0.items;
      TotalledCons(DayReport(d0.day, items, d0.totalMinutes + it.minutes, d0.breakMinutes + it.breakMinutes), days[1..]);
    } else if it.day < days[0].day {
      TotalledCons(single, days);
    } else {
      AddItemTotals(days[1..], it);
      TotalledCons(days[0], AddItem(days[1..], it));
    }
  }

  /** A totalled day in front of totalled days: all are totalled, and the
      sums gain that day's totals. */
  lemma TotalledCons(d: DayReport, days: seq<DayReport>)
    requires |d.items| > 0 && d.totalMinutes == SumMinutes(d.items) && d.breakMinutes == SumBreaks(d.items)
    requires Totalled(days)
    ensures Totalled([d] + days)
    ensures DaysMinutes([d] + days) == d.totalMinutes + DaysMinutes(days)
    ensures DaysBreaks([d] + days) == d.breakMinutes + DaysBreaks(days)
  {
    assert ([d] + days)[1..] == days;
  }

  /** Adding an item appends it to the items of its day and changes no
      other day. */
  lemma {:induction false} AddItemItems(days: seq<DayReport>, it: ReportItem, d: int)
    requires Ascending(days)
    ensures ItemsOfDay(AddItem(days, it), d) == ItemsOfDay(days, d) + (if d == it.day then [it] else [])
    decreases |days|
  {
    var r := AddItem(days, it);
    if |days| == 0 {
    } else if days[0].day == it.day {
      assert r[1..] == days[1..];
    } else if it.day < days[0].day {
      assert r[1..] == days;
      if d == it.day {
        BelowAllAbsent(days, d);
      }
    } else {
      assert r[1..] == AddItem(days[1..], it);
      AddItemItems(days[1..], it, d);
    }
  }

  lemma {:induction false} BelowAllAbsent(days: seq<DayReport>, d: int)
    requires Ascending(days)
    requires |days| > 0 ==> d < days[0].day
    ensures ItemsOfDay(days, d) == []
    decreases |days|
  {
    if |days| > 1 {
      BelowAllAbsent(days[1..], d);
    }
  }

  /** The items grouped by day, folding them in scan order. */
  function GroupByDay(items: seq<ReportItem>): seq<DayReport>
    decreases |items|
  {
    if |items| == 0 then [] else AddItem(GroupByDay(items[..|items| - 1]), items[|items| - 1])
  }

  /** The days on which some item falls. */
  function DaysOf(items: seq<ReportItem>): set<int> {
    set i | 0 <= i < |items| :: items[i].day
  }

  /** The days listed in a report. */
  function ListedDays(days: seq<DayReport>): set<int> {
    set i | 0 <= i < |days| :: days[i].day
  }

  /** Grouping keeps the days ascending and totalled, and the totals over
      all days are the totals over all items. */
  lemma {:induction false} GroupByDayTotals(items: seq<ReportItem>)
    ensures Ascending(GroupByDay(items)) && Totalled(GroupByDay(items))
    ensures DaysMinutes(GroupByDay(items)) == SumMinutes(items)
    ensures DaysBreaks(GroupByDay(items)) == SumBreaks(items)
    decreases |items|
  {
    if |items| > 0 {
      var init := items[..|items| - 1];
      GroupByDayTotals(init);
      AddItemDays(GroupByDay(init), items[|items| - 1]);
      AddItemTotals(GroupByDay(init), items[|items| - 1]);
    }
  }

  /** Each day lists exactly that day's items, in scan order. */
  lemma {:induction false} GroupByDayItems(items: seq<ReportItem>, d: int)
    ensures ItemsOfDay(GroupByDay(items), d) == ItemsOn(items, d)
    decreases |items|
  {
    if |items| > 0 {
      var init := items[..|items| - 1];
      GroupByDayTotals(init);
      GroupByDayItems(init, d);
      AddItemItems(GroupByDay(init), items[|items| - 1], d);
    }
  }

  /** The listed days are the days of the items. */
  lemma {:induction false} GroupByDayDays(items: seq<ReportItem>)
    ensures ListedDays(GroupByDay(items)) == DaysOf(items)
    decreases |items|
  {
    if |items| > 0 {
      var init := items[..|items| - 1];
      var it := items[|items| - 1];
      var g := GroupByDay(init);
      var r := AddItem(g, it);
      GroupByDayTotals(init);
      GroupByDayDays(init);
      AddItemDays(g, it);
      ListedDaysHasDay(g);
      ListedDaysHasDay(r);
      DaysOfSnoc(items);
    }
  }

  /** A day is listed iff the report has it. */
  lemma ListedDaysHasDay(days: seq<DayReport>)
    ensures forall d :: d in ListedDays(days) <==> HasDay(days, d)
  {
    forall d | HasDay(days, d) ensures d in ListedDays(days) {
      var k :| 0 <= k < |days| && days[k].day == d;
    }
  }

  /** The days of a non-empty item list: those of all but the last item, and
      the last item's. */
  lemma DaysOfSnoc(items: seq<ReportItem>)
    requires |items| > 0
    ensures DaysOf(items) == DaysOf(items[..|items| - 1]) + {items[|items| - 1].day}
  {
    var init := items[..|items| - 1];
    forall d | d in DaysOf(init) ensures d in DaysOf(items) {
      var k :| 0 <= k < |init| && init[k].day == d;
      assert items[k].day == d;
    }
    forall d | d in DaysOf(items) ensures d in DaysOf(init) + {items[|items| - 1].day} {
      var k :| 0 <= k < |items| && items[k].day == d;
      if k < |init| {
        assert init[k].day == d;
      }
    }
  }

  /** Distinct listed days are as many as the days listed. */
  lemma {:induction false} AscendingDaysCount(days: seq<DayReport>)
    requires Ascending(days)
    ensures |ListedDays(days)| == |days|
    decreases |days|
  {
    if |days| > 0 {
      AscendingDaysCount(days[1..]);
      ListedDaysCons(days);
      assert days[0].day !in ListedDays(days[1..]);
    }
  }

  /** The days listed in a non-empty report: the first and the rest's. */
  lemma ListedDaysCons(days: seq<DayReport>)
    requires |days| > 0
    ensures ListedDays(days) == {days[0].day} + ListedDays(days[1..])
  {
    forall d | d in ListedDays(days) ensures d in {days[0].day} + ListedDays(days[1..]) {
      var k :| 0 <= k < |days| && days[k].day == d;
      if k > 0 {
        assert days[1..][k - 1].day == d;
      }
    }
    forall d | d in ListedDays(days[1..]) ensures d in ListedDays(days) {
      var k :| 0 <= k < |days[1..]| && days[1..][k].day == d;
      assert days[k + 1].day == d;
    }
  }

  /** An item is listed for a task iff it is the item of one of its
      counted entries. */
  lemma {:induction false} EntryItemsMembers(t: Task, es: seq<TimeEntry>, w: Window, dayOf: int -> int, it: ReportItem)
    ensures it in EntryItems(t, es, w, dayOf) <==> exists e :: e in es && Counted(e, w) && it == ItemOf(t, e, dayOf)
    decreases |es|
  {
    if |es| > 0 {
      var init := es[..|es| - 1];
      var last := es[|es| - 1];
      EntryItemsMembers(t, init, w, dayOf, it);
      assert es == init + [last];
      if exists e :: e in es && Counted(e, w) && it == ItemOf(t, e, dayOf) {
        var e :| e in es && Counted(e, w) && it == ItemOf(t, e, dayOf);
        if e != last {
          assert e in init;
        }
      }
    }
  }

  /** An item is listed for a sequence of tasks iff it is the item of a
      counted entry of one of them. */
  lemma {:induction false} TaskItemsMembers(ts: seq<Task>, w: Window, dayOf: int -> int, it: ReportItem)
    ensures it in TaskItems(ts, w, dayOf) <==>
      exists t, e :: t in ts && e in t.timeEntries && Counted(e, w) && it == ItemOf(t, e, dayOf)
    decreases |ts|
  {
    if |ts| > 0 {
      var init := ts[..|ts| - 1];
      var last := ts[|ts| - 1];
      TaskItemsMembers(init, w, dayOf, it);
      EntryItemsMembers(last, last.timeEntries, w, dayOf, it);
      assert ts == init + [last];
      if exists t, e :: t in ts && e in t.timeEntries && Counted(e, w) && it == ItemOf(t, e, dayOf) {
        var t, e :| t in ts && e in t.timeEntries && Counted(e, w) && it == ItemOf(t, e, dayOf);
        if t != last {
          assert t in init;
        }
      }
    }
  }

  /** The store query loses nothing: the report lists exactly the items of
      the counted entries of every task assigned to the employee. */
  lemma ReportItemsMembers(store: seq<Task>, employee: EmployeeId, w: Window, dayOf: int -> int, it: ReportItem)
    ensures it in ReportItems(store, employee, w, dayOf) <==>
      exists t, e :: t in store && t.assignedTo == employee && e in t.timeEntries && Counted(e, w) && it == ItemOf(t, e, dayOf)
  {
    var sel := SelectTasks(store, employee, w);
    TaskItemsMembers(sel, w, dayOf, it);
    if exists t, e :: t in store && t.assignedTo == employee && e in t.timeEntries && Counted(e, w) && it == ItemOf(t, e, dayOf) {
      var t, e :| t in store && t.assignedTo == employee && e in t.timeEntries && Counted(e, w) && it == ItemOf(t, e, dayOf);
      var i :| 0 <= i < |t.timeEntries| && t.timeEntries[i] == e;
      assert Selected(t, employee, w);
    }
  }

  /** The query is looser than the per-entry filter: a task with one entry
      before the window and one after it is fetched, yet contributes no
      item. */
  lemma StraddlingTaskFetchedNotCounted(t: Task, w: Window, dayOf: int -> int)
    requires w.start <= w.end && |t.timeEntries| == 2
    requires t.timeEntries[0].startTime < w.start && w.end < t.timeEntries[1].startTime
    ensures Selected(t, t.assignedTo, w)
    ensures EntryItems(t, t.timeEntries, w, dayOf) == []
  {
    var es := t.timeEntries;
    assert w.start <= es[1].startTime && es[0].startTime <= w.end;
    assert !Counted(es[0], w) && !Counted(es[1], w);
    assert es[..1][..0] == [];
    assert EntryItems(t, es[..1][..0], w, dayOf) == [];
    assert es[..1][0] == es[0];
    assert EntryItems(t, es[..1], w, dayOf) == [];
    assert es[..|es| - 1] == es[..1];
  }

  const EmployeeNotFound := "Employee not found"

  /** The requested window when both dates are given, otherwise the
      default window the controller computes from the clock, a parameter
      here. */
  function ReportWindow(startDate: Option<int>, endDate: Option<int>, defaultWindow: Window): Window {
    if startDate.Some? && endDate.Some? then Window(startDate.value, endDate.value) else defaultWindow
  }

  /** The report items: the entries of the queried tasks, in store order. */
  function ReportItems(store: seq<Task>, employee: EmployeeId, w: Window, dayOf: int -> int): seq<ReportItem> {
    TaskItems(SelectTasks(store, employee, w), w, dayOf)
  }

  /** The weekly report of `employee`, known when in `employees`. */
  function GetWeeklyReport(employees: set<EmployeeId>, store: seq<Task>, employee: EmployeeId,
                           startDate: Option<int>, endDate: Option<int>, defaultWindow: Window,
                           dayOf: int -> int): (r: Result<Report>)
    ensures r.Err? <==> employee !in employees
    ensures r.Err? ==> r.kind == NotFound && r.message == EmployeeNotFound
    ensures r.Ok? ==>
      var w := ReportWindow(startDate, endDate, defaultWindow);
      var items := ReportItems(store, employee, w, dayOf);
      && r.value.window == w
      && Ascending(r.value.days)
      && Totalled(r.value.days)
      && (forall d :: ItemsOfDay(r.value.days, d) == ItemsOn(items, d))
      && ListedDays(r.value.days) == DaysOf(items)
      && r.value.summary.totalMinutes == SumMinutes(items)
      && r.value.summary.breakMinutes == SumBreaks(items)
      && r.value.summary.netMinutes == SumMinutes(items) - SumBreaks(items)
      && r.value.summary.daysWorked == |DaysOf(items)|
  {
    if employee !in employees then Err(NotFound, EmployeeNotFound)
    else
      var w := ReportWindow(startDate, endDate, defaultWindow);
      var items := ReportItems(store, employee, w, dayOf);
      var days := GroupByDay(items);
      GroupByDayTotals(items);
      GroupByDayDays(items);
      AscendingDaysCount(days);
      assert forall d :: ItemsOfDay(days, d) == ItemsOn(items, d) by {
        forall d ensures ItemsOfDay(days, d) == ItemsOn(items, d) {
          GroupByDayItems(items, d);
        }
      }
      var total := DaysMinutes(days);
      var breaks := DaysBreaks(days);
      Ok(Report(w, days, Summary(total, breaks, total - breaks, |days|)))
  }
}
